=== FILE: README.md ===
# Gartenbau gallery site: service worker and gallery navigation

This project models two parts of a landscaping company's static website.

The first is its service worker (`sw.js`, version 3.0). It keeps three versioned caches:

- `static-v3.0`, for documents, styles and scripts;
- `dynamic-v3.0`, for other images and everything else;
- `images-v3.0`, for the numbered gallery photos.

Only same-origin `GET` requests reach a handler. The worker classifies each one in a fixed order: the gallery pattern `/\/img\/image_\d+\.webp$/` on the pathname first, then the request destination. It answers with one of five handlers:

- four cache-first handlers: gallery image, document, asset and image;
- one network-first handler: the default.

Before a bounded cache stores a response, `manageCacheSize` deletes the oldest fifth of its entries once the cache is full. Install pre-caches eight critical resources, all or none. Activate deletes every cache not named for version 3.0 and preloads five essential resources.

The second part is the pure paging and navigation logic of three gallery scripts:

- `js/universal-gallery.js`:
  - 181 generated image records;
  - search and sort;
  - the grid page;
  - the 5-button pagination window;
  - prev/next buttons;
  - the wrap-around carousel.
- `js/simple-universal-gallery.js`:
  - 181 photos on 8 fixed pages;
  - a visible-count statistic;
  - a page window without back-adjustment.
- `js/mobile-optimized-gallery.js`:
  - 180 images in batches;
  - batch navigation;
  - lightbox arrows and swipes;
  - desktop grid placement.

## Design

- Cache Storage is a map from cache name to cache. A cache is a sequence of `(url, response)` entries with distinct keys, kept in insertion order. `cache.put` deletes the old entry for a key and appends the new one. `cache.keys()` lists keys oldest first, so "the oldest fifth" is a prefix.
- A handler is a pure function from the storage, the request key and the network's answer (`Net`: thrown, or resolved to a response) to the new storage and the reply. The reply is one of:
  - no `respondWith` at all;
  - a response;
  - a promise that resolved to nothing.
- The lifecycle events take the network as a function from URL to `Net`.
- The galleries' randomness (`Math.random`) and `toLowerCase` are parameters (`choose`, `lower`).
- The gallery state is a record of the fields its event handlers change.
- Module `GalleryRouting` connects the two parts. Every image source the universal and the simple gallery generate, requested from any directory, takes the worker's gallery-image route. The mobile gallery's `.jpg` sources are not covered by it; they fail the pattern and take the images route.
- Two behaviours of the code are modelled as they are:
  - `handleImages` stores into the dynamic cache, which `handleDefault` also fills without a bound. Its "Keep max 30 regular images" comment (sw.js:220) therefore holds only as a growth limit: a store into a dynamic cache of 30 entries or more never makes it larger.
  - The simple gallery's search only returns to page 1, as its own comment says (js/simple-universal-gallery.js:260-261).
- Two defects are modelled both as written and corrected; see "## Findings":
  - The offline fallback of `handleDocument` never produces its 503 response. The fetch event `Worker.OnFetch` uses the handler as written, `Worker.HandleDocumentAsWritten`. `Worker.OnFetchCorrected` uses the corrected `Worker.HandleDocument`.
  - The universal gallery's search does not reset the carousel index, so the index can name no slide. `UniversalGallery.OnSearchAsWritten` keeps it; `UniversalGallery.OnSearch` resets it to the first slide.

## Model

| member | source | states |
|---|---|---|
| Text.Decimal | js/universal-gallery.js:34-38 | the printed image number is a non-empty run of digits with no leading zero |
| Text.ParseDecimalOfDecimal | js/universal-gallery.js:382 | `parseInt` of a page button's printed number gives back that number |
| Text.Includes | js/universal-gallery.js:160-165 | `includes` holds exactly when the needle occurs at some position of the haystack |
| CacheStore.Match | sw.js:133 | `cache.match` finds a response exactly when the key is stored, and only a stored pair |
| CacheStore.MatchIsTheEntry | sw.js:133 | in a cache with distinct keys, `match` returns the response of the key's only entry |
| CacheStore.Keys | sw.js:249 | `cache.keys()` lists every entry's request in insertion order |
| CacheStore.Delete | sw.js:253 | `cache.delete` removes every entry of the key and nothing else; in a cache it cuts out the key's one entry, the others keeping their order, and shrinks by one exactly when the key was present |
| CacheStore.Put | sw.js:144 | after `cache.put` the key answers with the new response and every other key as before; a new key is appended last; an existing key's entry is cut out and the pair appended last, the other entries keeping their order |
| CacheStore.DeleteOldest | sw.js:252-253 | deleting the first k keys of `keys()` leaves exactly the entries after the first k |
| CacheStore.ManageCacheSize | sw.js:248-256 | a cache of at least `maxSize` entries loses exactly its oldest `floor(n*0.2)` entries, the rest in order; a smaller cache is unchanged |
| CacheStore.PutAllStoresBatch | sw.js:45 | storing a batch of distinct URLs leaves each answering with its own response and every other key untouched |
| CacheStore.AddAll | sw.js:45 | `addAll` succeeds exactly when the URLs are distinct and every fetch is `ok`; then it stores all and keeps other keys, otherwise nothing |
| Worker.TrailingDigits | sw.js:37 | counts the maximal run of digits closing a string |
| Worker.GalleryPathAccepted | sw.js:37 | every `<dir>/img/image_<digits>.webp` pathname matches the gallery pattern |
| Worker.TrailingDigitsOfRun | sw.js:37 | a digit run of length n after a non-digit is counted as n |
| Worker.GalleryPathShape | sw.js:37 | every matching pathname splits into a directory, `/img/image_`, at least one digit and `.webp` |
| Worker.Classify | sw.js:101-126 | each route is selected exactly under its own test and the failure of every earlier one |
| Worker.Open | sw.js:132 | `caches.open` adds the name with an empty cache when missing and changes no existing cache |
| Worker.EvictThenPutBounded | sw.js:248-256 | with a bound of at least 5, a cache within the bound stays within it after the eviction pass and one put |
| Worker.CacheFirst | sw.js:130-153 | hit: cached response, no write; miss: network response, stored after eviction only when `ok`; thrown: empty 404, nothing stored; other caches untouched |
| Worker.HandleGalleryImage | sw.js:130-153 | the image cache is the only one touched, a hit writes nothing, every path answers, and the cache never grows past 50 |
| Worker.HandleAssets | sw.js:186-206 | cache-first on the static cache only, a non-`ok` response is never stored, every path answers |
| Worker.HandleImages | sw.js:209-227 | cache-first on the dynamic cache only; a store into a dynamic cache of 30 entries or more never makes it larger |
| Worker.HandleDocumentAsWritten | sw.js:156-183 | a hit answers the cached copy at once; a miss answers the network, and an `ok` response is put into the static cache exactly as `cache.put` does, every other key kept; a thrown fetch answers the cached `/index.html` or no response at all |
| Worker.HandleDocument | sw.js:178-182 | the same storage and replies as written, including the `cache.put` of an `ok` miss and the frame on other static keys, except that offline with no `/index.html` it answers the 503 `Offline` response, so it always answers |
| Worker.RefreshDocument | sw.js:163-169 | the background refresh replaces the cached document only with an `ok` response and touches no other key or cache |
| Worker.HandleDefault | sw.js:230-245 | network first: an `ok` response is put into the dynamic cache exactly as one `cache.put` does, every other dynamic key kept; a non-`ok` one leaves storage as it was; a thrown fetch answers the cached copy or an empty 404 |
| Worker.OnFetch | sw.js:92-127 | non-GET and cross-origin requests get no `respondWith` and change nothing; an intercepted request gets no response exactly when it is a document request, offline, with neither the document nor `/index.html` cached |
| Worker.OnFetchCorrected | sw.js:92-127 | with the corrected document handler every intercepted request is answered with a response; wherever the worker as written answers, this one answers and stores the same |
| Worker.CriticalResourcesDistinct | sw.js:8-17 | the eight critical resources are distinct URLs |
| Worker.PreloadBatchDistinct | sw.js:20-34 | the five preloaded URLs are distinct, and none of the other eight is among them |
| Worker.Populate | sw.js:43-46 | one `addAll` into an opened cache: all of the batch or no change, other caches untouched |
| Worker.OpenAll | sw.js:42-54 | the install's three opens add exactly the three version-3.0 names and change no existing cache |
| Worker.DeleteObsolete | sw.js:66-81 | the cleanup keeps exactly the existing caches with an expected name, unchanged |
| Worker.Precache | sw.js:40-60 | install over any distinct URL list: succeeds exactly when every fetch is `ok`, stores each, and keeps the rest of the static cache; failure only opens |
| Worker.Install | sw.js:40-60 | install succeeds exactly when all eight critical fetches are `ok`; then each is cached, otherwise no cache content changes |
| Worker.Preload | sw.js:63-89 | activate over any preload list: obsolete caches gone, the others unchanged, the first `count` URLs cached exactly when all are `ok`, every other dynamic-cache key answering as before |
| Worker.Activate | sw.js:63-89 | activation deletes every non-version-3.0 cache, keeps the others, preloads the first five essential resources all or none, and leaves every other dynamic-cache key, the other eight included, answering as before |
| WorkerProperties.FetchKeepsImageCacheBounded | sw.js:92-127 | no fetch takes the image cache past 50 entries |
| WorkerProperties.StepKeepsImageCacheBounded | sw.js:40-127 | no single event takes the image cache past 50 entries |
| WorkerProperties.RefreshKeepsImageCache | sw.js:163-169 | the background document refresh leaves the image cache as it was |
| WorkerProperties.InstallKeepsImageCacheBounded | sw.js:51-54 | install creates the image cache empty or leaves it as it was |
| WorkerProperties.ActivateKeepsImageCache | sw.js:63-89 | activation leaves the image cache as it was |
| WorkerProperties.ImageCacheStaysBounded | sw.js:130-153 | over any run of fetches, refreshes, installs and activations, the image cache stays within 50 entries |
| WorkerProperties.ThirtyPlusOne | sw.js:220-221 | a full 30-entry cache loses its 6 oldest entries before the 31st key is appended, leaving 25 |
| WorkerProperties.GalleryRepeatServesStored | sw.js:133-148 | a gallery image stored after a miss answers every later request, whatever the network does, with no write |
| WorkerProperties.DocumentRefreshServedNextTime | sw.js:163-172 | a cached document is answered at once, and after the refresh the next request receives the newer copy |
| WorkerProperties.OfflineFallbackWithoutIndexGivesNoResponse | sw.js:179-182 | offline, with neither the document nor `/index.html` cached, the handler as written gives no response and never the 503, where the corrected one gives the 503 |
| WorkerProperties.DocumentFixChangesOnlyTheSilentCase | sw.js:156-183 | the handler as written is silent exactly offline with neither copy cached; in every other case the corrected handler equals it |
| WorkerProperties.FailedInstallStoresNothing | sw.js:45 | after a failed install each critical resource answers as it did before |
| Paging.CeilDiv | js/universal-gallery.js:351 | `Math.ceil(n/d)` is the least count of groups of d holding n |
| Paging.Slice | js/universal-gallery.js:228 | `slice` with non-negative bounds has the clipped length and the elements from `from` on |
| Paging.Chunk | js/mobile-optimized-gallery.js:375-377 | chunk k holds at most `size` items, the ones from index `k*size` on |
| Paging.PageSlice | js/universal-gallery.js:225-228 | a grid page has at most 24 items, taken from index `(page-1)*24` on |
| Paging.ChunksAt | js/mobile-optimized-gallery.js:375-377 | the k-th chunk of a run is the chunk with index `from+k` |
| Paging.ChunkStart | js/mobile-optimized-gallery.js:220-221 | a chunk index below the chunk count starts inside the list |
| Paging.ChunkEnd | js/mobile-optimized-gallery.js:220-221 | the index equal to the chunk count starts at or past the end |
| Paging.ChunkAt | js/mobile-optimized-gallery.js:220-221 | a chunk is the list slice from its start, clipped at the end |
| Paging.ChunksUnfold | js/mobile-optimized-gallery.js:220-221 | a run of chunks laid out starts with its first chunk |
| Paging.ChunksFromCover | js/mobile-optimized-gallery.js:220-221 | the chunks from index k to the last, laid end to end, are the items from `k*size` on |
| Paging.ChunksPartition | js/universal-gallery.js:225-228 | the pages of a list, laid end to end, give back exactly the list |
| Paging.PrevPage | js/universal-gallery.js:133-141 | the previous button moves back one page exactly when it is enabled, never below page 1 |
| Paging.NextPage | js/universal-gallery.js:143-151 | the next button moves forward one page exactly when it is enabled, never past the last page |
| Paging.PrevNextUndo | js/universal-gallery.js:133-151 | whenever either button is enabled, the other undoes its move |
| UniversalGallery.CategoryOf | js/universal-gallery.js:49-59 | the category of image n is the `(n+4) mod 5`-th of the five, so consecutive numbers cycle through them |
| UniversalGallery.YearOf | js/universal-gallery.js:70-72 | every image's year lies between 2020 and 2024 |
| UniversalGallery.LoadAllImages | js/universal-gallery.js:30-47 | 181 records, record i with id i+1, strictly ascending by id |
| UniversalGallery.Keep | js/universal-gallery.js:159-166 | `filter` keeps exactly the matching records and no more than it was given |
| UniversalGallery.KeepConcat | js/universal-gallery.js:159-166 | filtering a concatenation filters each part, keeping the relative order |
| UniversalGallery.ConsAscending | js/universal-gallery.js:30-47 | a record with a smaller id in front of an ascending list keeps it ascending |
| UniversalGallery.KeepAscending | js/universal-gallery.js:159-166 | filtering a strictly ascending list keeps it strictly ascending |
| UniversalGallery.SearchFilter | js/universal-gallery.js:155-166 | an empty term keeps every record in order; any other term keeps exactly the matching records |
| UniversalGallery.TailSorted | js/universal-gallery.js:169-175 | the tail of a sorted list is sorted |
| UniversalGallery.ConsSorted | js/universal-gallery.js:169-175 | a record that may precede a sorted list's head may precede all of it |
| UniversalGallery.Insert | js/universal-gallery.js:169-175 | inserting into a sorted list gives a sorted list with one more element, the same elements plus the new one |
| UniversalGallery.SortById | js/universal-gallery.js:169-175 | the `newest`/`oldest` sorts give a permutation of the list in descending/ascending id order |
| UniversalGallery.ConsDistinct | js/universal-gallery.js:169-175 | a record with a new id in front of a list with distinct ids keeps the ids distinct |
| UniversalGallery.TailDistinct | js/universal-gallery.js:169-175 | the tail of a list with distinct ids has distinct ids, none the head's |
| UniversalGallery.InsertKeepsIdsDistinct | js/universal-gallery.js:169-175 | inserting a record with a new id keeps the ids distinct |
| UniversalGallery.SortKeepsIdsDistinct | js/universal-gallery.js:169-175 | sorting keeps distinct ids distinct |
| UniversalGallery.Swap | js/universal-gallery.js:187-188 | the destructuring swap is a permutation |
| UniversalGallery.ShuffleDown | js/universal-gallery.js:184-191 | the Fisher-Yates loop is a permutation whatever the random draws |
| UniversalGallery.Shuffle | js/universal-gallery.js:184-191 | `shuffleArray` returns a permutation of its input |
| UniversalGallery.ApplyFilters | js/universal-gallery.js:155-182 | every order, including shuffle and an unknown key, is a permutation of the search result; `newest`/`oldest` are sorted |
| UniversalGallery.SortStrict | js/universal-gallery.js:169-175 | sorting a list with distinct ids orders them strictly |
| UniversalGallery.SortsAreStrict | js/universal-gallery.js:155-182 | on ascending records, `newest` gives strictly descending ids and `oldest` strictly ascending ones, for any search term |
| UniversalGallery.PageWindow | js/universal-gallery.js:362-368 | the window lies in `[1,total]`, contains the current page, and shows `min(5,total)` buttons |
| UniversalGallery.CarouselPrev | js/universal-gallery.js:313-316 | back one slide, wrapping from the first to the last, staying on the list |
| UniversalGallery.CarouselNext | js/universal-gallery.js:318-321 | forward one slide, wrapping from the last to the first, landing on the list |
| UniversalGallery.CarouselRoundTrip | js/universal-gallery.js:313-321 | the two carousel buttons undo each other on every slide |
| UniversalGallery.Init | js/universal-gallery.js:3-14 | a new gallery has every record loaded and none filtered out, on page 1 with no search term |
| UniversalGallery.GridPage | js/universal-gallery.js:225-228 | the grid shows exactly the filtered records from `(page-1)*24` on, in order, 24 of them or as many as remain |
| UniversalGallery.OnSearchAsWritten | js/universal-gallery.js:112-118 | a search stores the lower-cased term, keeps the sort key and re-applies it to the re-filtered records (a permutation of the matches, sorted for `newest` and `oldest`), returns to page 1, leaves the gallery valid and the carousel index where it was |
| UniversalGallery.OnSearch | js/universal-gallery.js:112-118 | the corrected search: the same sort key, re-sorted filtered list, page 1 and validity, with the carousel index on a slide of the new list |
| UniversalGallery.OnSort | js/universal-gallery.js:125-129 | a sort change selects the new sort key and re-orders the search result by it: a permutation of it, sorted descending for `newest` and ascending for `oldest`; page, term, images and carousel are kept and the gallery stays valid |
| UniversalGallery.OnPrev | js/universal-gallery.js:133-141 | the previous button changes only the page, by the previous-page rule |
| UniversalGallery.OnNext | js/universal-gallery.js:143-151 | the next button changes only the page, by the next-page rule |
| UniversalGallery.OnPageButton | js/universal-gallery.js:372-384 | a page button sets the page to the number rendered on it and changes nothing else |
| UniversalGallery.OnCarouselPrev | js/universal-gallery.js:313-316 | the carousel's previous button changes only the index, and keeps an index on the list on the list |
| UniversalGallery.OnCarouselNext | js/universal-gallery.js:318-321 | the carousel's next button changes only the index and always lands on a slide |
| UniversalGallery.OnIndicator | js/universal-gallery.js:323-328 | a click on a rendered indicator puts the carousel on that slide |
| UniversalGallery.CarouselStaysOnList | js/universal-gallery.js:112-151 | with the corrected search, every handler, carousel buttons and indicators included, keeps the carousel index on the list |
| UniversalGallery.SearchStrandsCarousel | js/universal-gallery.js:112-118 | as written, a search leaving fewer records than the carousel index leaves no slide active, and the previous button from past the end still names none |
| UniversalGallery.StrandedCarouselExample | js/universal-gallery.js:112-118 | three records, carousel on the third, a search keeping the first: as written the index names no slide, before or after the previous button; the corrected search keeps it on a slide |
| UniversalGallery.HandlersKeepValid | js/universal-gallery.js:112-151 | every handler keeps the page within `[1,totalPages]` and the filtered list a permutation of the search result |
| UniversalGallery.InitValid | js/universal-gallery.js:3-14 | the freshly loaded gallery is valid, with the carousel on its first slide |
| SimpleGallery.TitleOf | js/simple-universal-gallery.js:59-65 | every title is one of the eight |
| SimpleGallery.LocationOf | js/simple-universal-gallery.js:67-73 | every location is one of the eight |
| SimpleGallery.AllPhotos | js/simple-universal-gallery.js:45-54 | 181 photos, photo i+1 at index i with source `img/image_<i+1>.webp` |
| SimpleGallery.TotalPages | js/simple-universal-gallery.js:176 | 181 photos at 24 a page make 8 pages |
| SimpleGallery.PagePhotos | js/simple-universal-gallery.js:123-125 | a page shows at most 24 photos, numbered on from `(page-1)*24+1` |
| SimpleGallery.VisibleCountMatchesPage | js/simple-universal-gallery.js:170 | the visible-count statistic equals the photos rendered: 24 on pages 1-7, 13 on page 8 |
| SimpleGallery.PageWindow | js/simple-universal-gallery.js:188-192 | the window lies in `[1,total]`, has at most 5 buttons and contains the current page |
| SimpleGallery.WindowFullUnlessNearEnd | js/simple-universal-gallery.js:188-192 | with at least 5 pages the window shows 5 buttons iff the page is two or more before the last, and there agrees with the full gallery's |
| SimpleGallery.LastPageWindow | js/simple-universal-gallery.js:188-192 | on page 8 of 8 the simple window is 6-8 where the full gallery's is 4-8 |
| SimpleGallery.OnPrev | js/simple-universal-gallery.js:231-239 | the previous button follows the previous-page rule and keeps the page in 1-8 |
| SimpleGallery.OnNext | js/simple-universal-gallery.js:241-250 | the next button follows the next-page rule and keeps the page in 1-8 |
| SimpleGallery.OnSearch | js/simple-universal-gallery.js:258-265 | a search only returns to page 1 |
| SimpleGallery.OnPageButton | js/simple-universal-gallery.js:192-204 | a page button sets the page to its rendered number, which lies in 1-8 |
| MobileGallery.BatchSize | js/mobile-optimized-gallery.js:6 | a given non-zero batch size is used, otherwise 10 on a phone and 12 on the desktop |
| MobileGallery.TotalBatches | js/mobile-optimized-gallery.js:106 | enough batches for every image, none empty, at least one when there are images |
| MobileGallery.GoToPreviousBatch | js/mobile-optimized-gallery.js:92-96 | moves back one batch exactly when the button is enabled, never below batch 0 |
| MobileGallery.GoToNextBatch | js/mobile-optimized-gallery.js:98-103 | moves forward one batch exactly when the button is enabled, never past the last batch |
| MobileGallery.BatchNavigation | js/mobile-optimized-gallery.js:92-120 | both buttons keep the batch valid and each undoes the other when enabled |
| MobileGallery.Numbers | js/mobile-optimized-gallery.js:10 | the image numbers are 1 to total in order |
| MobileGallery.BatchImages | js/mobile-optimized-gallery.js:375-384 | a batch renders `min(perBatch, total - batch*perBatch)` image numbers (none past the end), consecutive from `batch*perBatch+1`, at least one for a valid batch |
| MobileGallery.BatchIsChunk | js/mobile-optimized-gallery.js:216-227 | a batch is the matching chunk of the image numbers |
| MobileGallery.AllBatches | js/mobile-optimized-gallery.js:216-227 | the batches, one per batch index |
| MobileGallery.BatchesPartition | js/mobile-optimized-gallery.js:216-227 | the batches, laid end to end, list every image number from 1 to total exactly once, in order |
| MobileGallery.DesktopVisible | js/mobile-optimized-gallery.js:329-342 | the desktop's visible items are exactly batch 0 |
| MobileGallery.LightboxStep | js/mobile-optimized-gallery.js:549 | the arrows land on an image number, the requested one whenever it exists |
| MobileGallery.Swipe | js/mobile-optimized-gallery.js:566-586 | for real-valued touch deltas, a swipe opens an image exactly when it is horizontal, longer than 50 pixels and has a neighbour that way |
| MobileGallery.FractionalSwipeOpensNeighbour | js/mobile-optimized-gallery.js:566-586 | a left swipe of 50.5 pixels opens the next image, one of exactly 50 opens nothing |
| MobileGallery.SwipeAgreesWithArrows | js/mobile-optimized-gallery.js:546-586 | a swipe opens the image the matching arrow opens |
| MobileGallery.ItemsPerRow | js/mobile-optimized-gallery.js:298 | at least one image per row |
| MobileGallery.DesktopCell | js/mobile-optimized-gallery.js:402-403 | row and column are in range and read row by row give back the image order |
| MobileGallery.DesktopCellsDistinct | js/mobile-optimized-gallery.js:402-403 | two different images never share a cell |
| MobileGallery.Init | js/mobile-optimized-gallery.js:3-24 | a new viewer is on batch 0 with a non-empty batch size and is valid |
| MobileGallery.OnPrevBatch | js/mobile-optimized-gallery.js:92-96 | the previous-batch click keeps the viewer valid |
| MobileGallery.OnNextBatch | js/mobile-optimized-gallery.js:98-103 | the next-batch click keeps the viewer valid |
| MobileGallery.Shown | js/mobile-optimized-gallery.js:375-384 | a valid viewer shows exactly the image numbers `batch*perBatch+1` onward, `min(perBatch, 180 - batch*perBatch)` of them, between one and `perBatch` |
| GalleryRouting.SourcePathIsGalleryPath | js/universal-gallery.js:36 | a generated source under any directory matches the worker's gallery pattern |
| GalleryRouting.GallerySourcesRouteToGalleryHandler | sw.js:101-105 | a request for any generated gallery image takes the gallery-image route, whatever its destination |

## Findings

| source | as written | input that shows it | evidently intended | confidence | as-written member | corrected member |
|---|---|---|---|---|---|---|
| sw.js:181 | the fallback ORs the un-awaited `cache.match` promise with the 503 response; a promise is always truthy, so the 503 branch is dead and the reply resolves to `undefined` when `/index.html` is not cached | a document request, offline, with neither the document nor `/index.html` in the static cache | answer the 503 `Offline` response when `/index.html` is not cached | high; not executed | WorkerProperties.OfflineFallbackWithoutIndexGivesNoResponse | Worker.HandleDocument |
| js/universal-gallery.js:112-118 | the search handler re-filters and resets the page but leaves `carouselIndex` as it was, so after a search that keeps fewer records the index names no slide; the carousel's previous button (line 314) then only decrements it | carousel on slide 3 of 3, then a search that keeps one record, then the previous button | return the carousel to its first slide on a search, as the page returns to page 1, so that a slide is always active | medium; not executed | UniversalGallery.StrandedCarouselExample | UniversalGallery.OnSearch |

## Left out

- The `sync`, `push` and `notificationclick` listeners and `CACHE_NAME` (sw.js:2 and 259-297): they do not take part in caching or routing.
- Logging (`console.log`), `skipWaiting` and `clients.claim`: no effect on cache contents or replies.
- Concurrency:
  - Un-awaited `cache.put` calls are taken to complete before the handler's reply.
  - The document handler's fire-and-forget refresh is the separate step `Worker.RefreshDocument`.
  - The install and activate `Promise.all` branches are taken to run in sequence.
  - `caches.open` and `cache.match` are taken never to reject.
- `cache: 'reload'` on the install requests: no effect on what is stored.
- Request headers and `Vary` matching: the model compares origin-relative URLs.
- Failures of `cache.put` or `caches.delete` themselves: they are not modelled.
- `Worker.HandleImages`: states a growth bound, not a size bound. The default handler stores into the same dynamic cache without eviction, so the source promises no size bound there.
- `UniversalGallery.YearOf`: states only the 2020-2024 range, not which year each number gets.
- `SimpleGallery.TitleOf` and `SimpleGallery.LocationOf`: state list membership, not the position.
- `UniversalGallery.Shuffle`: the `Math.random()` draws are the `choose` oracle. Only the permutation property is stated, not the distribution.
- `UniversalGallery.OnSearch`: `toLowerCase` is the `lower` parameter, because Unicode case mapping is not modelled.
- The DOM rendering of every gallery is not modelled, nor are lazy loading, the Intersection Observer and image preloading with its webp-to-jpg fallback. Nor are timers, `handleResize`, the desktop scroll handler (disabled in the source) or the view-mode switches of the universal gallery. None of these decide a page, a batch or an image number.
- `MobileGallery.BatchSize`: a negative `imagesPerBatch` option is not modelled; the option is a natural number.
- `js/common.js`, `js/instant-gallery.js`, `js/modern-gallery.js` and `img/script-fotos-to-webp/convert-to-webp.js` are not part of this model.

=== FILE: cache.dfy ===
/**
 Requests' URLs, responses and the network as the worker sees them. A fetch
 either throws (`Fail`: offline, DNS failure, aborted) or resolves to a
 response, which may or may not be `ok`.
 */
module Http {

  /** A same-origin request URL, written origin-relative (pathname plus query). */
  type Url = string

  datatype Response = Response(status: int, body: string) {

    /** The Fetch standard's `ok` flag: a status in the range 200 to 299. */
    predicate Ok() {
      200 <= status <= 299
    }
  }

  /** The outcome of one `fetch(request)`: thrown, or resolved to a response. */
  datatype Net = Fail | Got(response: Response)

  /** `new Response('', { status: 404 })`, the handlers' fallback when nothing else is left. */
  const EmptyNotFound: Response := Response(404, "")

  /** `new Response('Offline', { status: 503 })`, the document handler's intended last resort. */
  const OfflineResponse: Response := Response(503, "Offline")
}

/**
 One named cache of the Cache Storage: request/response pairs in insertion
 order with at most one entry per request URL, as the Cache interface of the
 W3C Service Workers specification keeps them. `put` replaces the entry of
 its request by deleting it and appending the new pair, `keys` lists requests
 in insertion order, and `addAll` stores either every response or none.
 */
module CacheStore {

  import opened Optional
  import opened Http

  type Entry = (Url, Response)

  predicate DistinctKeys(s: seq<Entry>) {
    forall i, j | 0 <= i < j < |s| :: s[i].0 != s[j].0
  }

  type Cache = s: seq<Entry> | DistinctKeys(s) witness []

  predicate HasKey(s: seq<Entry>, u: Url) {
    exists i | 0 <= i < |s| :: s[i].0 == u
  }

  /** `cache.keys()`: the request URLs in insertion order. */
  function Keys(c: seq<Entry>): (ks: seq<Url>)
    ensures |ks| == |c|
    ensures forall i | 0 <= i < |c| :: ks[i] == c[i].0
  {
    seq(|c|, i requires 0 <= i < |c| => c[i].0)
  }

  lemma DropKeepsDistinct(c: Cache, k: nat)
    requires k <= |c|
    ensures DistinctKeys(c[k..])
  {
    forall i, j | 0 <= i < j < |c| - k
      ensures c[k..][i].0 != c[k..][j].0
    {
      assert c[k..][i] == c[k + i] && c[k..][j] == c[k + j];
    }
  }

  /** `cache.match(url)`: the response stored for `u`, if any. */
  function Match(c: seq<Entry>, u: Url): (r: Option<Response>)
    ensures r.None? <==> !HasKey(c, u)
    ensures r.Some? ==> (u, r.value) in c
  {
    if |c| == 0 then None
    else if c[0].0 == u then Some(c[0].1)
    else
      assert forall i | 0 <= i < |c| - 1 :: c[1..][i] == c[i + 1];
      assert forall i | 1 <= i < |c| :: c[i] == c[1..][i - 1];
      Match(c[1..], u)
  }

  /** In a cache with distinct keys, the entry found for a key is the only one it has. */
  lemma MatchIsTheEntry(c: Cache, i: nat)
    requires i < |c|
    ensures Match(c, c[i].0) == Some(c[i].1)
  {
    var r := Match(c, c[i].0);
    var j :| 0 <= j < |c| && c[j] == (c[i].0, r.value);
    assert j == i;
  }

  /** How the key facts of a non-empty list follow from its head and tail. */
  lemma HeadTail(c: seq<Entry>)
    requires |c| > 0
    ensures forall k :: HasKey(c, k) <==> c[0].0 == k || HasKey(c[1..], k)
    ensures forall e :: e in c <==> e == c[0] || e in c[1..]
    ensures DistinctKeys(c) <==> DistinctKeys(c[1..]) && !HasKey(c[1..], c[0].0)
  {
    assert forall i | 1 <= i < |c| :: c[i] == c[1..][i - 1];
    assert forall i | 0 <= i < |c| - 1 :: c[1..][i] == c[i + 1];
    assert c == [c[0]] + c[1..];
  }

  /** The entries of `c` whose key is not `u`, in order. */
  function Without(c: seq<Entry>, u: Url): seq<Entry>
    decreases |c|
  {
    if |c| == 0 then []
    else if c[0].0 == u then Without(c[1..], u)
    else [c[0]] + Without(c[1..], u)
  }

  lemma {:induction false} WithoutMembers(c: seq<Entry>, u: Url)
    ensures forall e :: e in Without(c, u) <==> e in c && e.0 != u
    ensures |Without(c, u)| <= |c|
    decreases |c|
  {
    if |c| > 0 {
      HeadTail(c);
      WithoutMembers(c[1..], u);
    }
  }

  lemma {:induction false} WithoutAbsent(c: seq<Entry>, u: Url)
    requires !HasKey(c, u)
    ensures Without(c, u) == c
    decreases |c|
  {
    if |c| > 0 {
      HeadTail(c);
      WithoutAbsent(c[1..], u);
      assert c == [c[0]] + c[1..];
    }
  }

  lemma {:induction false} WithoutDistinct(c: seq<Entry>, u: Url)
    requires DistinctKeys(c)
    ensures DistinctKeys(Without(c, u))
    ensures HasKey(c, u) ==> |Without(c, u)| == |c| - 1
    decreases |c|
  {
    if |c| > 0 {
      HeadTail(c);
      var rest := Without(c[1..], u);
      WithoutDistinct(c[1..], u);
      if c[0].0 == u {
        WithoutAbsent(c[1..], u);
      } else {
        var r := [c[0]] + rest;
        HeadTail(r);
        assert r[1..] == rest;
        WithoutMembers(c[1..], u);
        forall i | 0 <= i < |rest|
          ensures rest[i].0 != c[0].0
        {
          assert rest[i] in rest;
          var j :| 0 <= j < |c[1..]| && c[1..][j] == rest[i];
        }
      }
    }
  }

  /** The position of the first entry for `u`. */
  function KeyIndex(c: seq<Entry>, u: Url): (i: nat)
    requires HasKey(c, u)
    ensures i < |c| && c[i].0 == u
    ensures forall j | 0 <= j < i :: c[j].0 != u
  {
    if c[0].0 == u then 0
    else
      assert forall j | 1 <= j < |c| :: c[j] == c[1..][j - 1];
      assert HasKey(c[1..], u) by {
        var j :| 0 <= j < |c| && c[j].0 == u;
        assert c[1..][j - 1].0 == u;
      }
      1 + KeyIndex(c[1..], u)
  }

  /** With distinct keys, removing a present key cuts its one entry out and keeps the rest in order. */
  lemma {:induction false} WithoutSplit(c: seq<Entry>, u: Url, i: nat)
    requires DistinctKeys(c)
    requires i < |c| && c[i].0 == u
    ensures Without(c, u) == c[..i] + c[i + 1..]
    decreases |c|
  {
    HeadTail(c);
    if i == 0 {
      WithoutAbsent(c[1..], u);
    } else {
      assert c[1..][i - 1] == c[i];
      WithoutSplit(c[1..], u, i - 1);
      assert c[1..][..i - 1] == c[1..i];
      assert c[1..][i..] == c[i + 1..];
      assert [c[0]] + c[1..i] == c[..i];
    }
  }

  /** `cache.delete(url)`: every entry for `u` goes, the rest keep their order. */
  function Delete(c: seq<Entry>, u: Url): (r: seq<Entry>)
    ensures !HasKey(r, u)
    ensures forall e :: e in r <==> e in c && e.0 != u
    ensures |r| <= |c|
    ensures !HasKey(c, u) ==> r == c
    ensures DistinctKeys(c) ==> DistinctKeys(r)
    ensures DistinctKeys(c) && HasKey(c, u) ==> |r| == |c| - 1
    ensures DistinctKeys(c) && HasKey(c, u) ==> r == c[..KeyIndex(c, u)] + c[KeyIndex(c, u) + 1..]
  {
    WithoutFacts(c, u);
    Without(c, u)
  }

  lemma WithoutFacts(c: seq<Entry>, u: Url)
    ensures !HasKey(Without(c, u), u)
    ensures forall e :: e in Without(c, u) <==> e in c && e.0 != u
    ensures |Without(c, u)| <= |c|
    ensures !HasKey(c, u) ==> Without(c, u) == c
    ensures DistinctKeys(c) ==> DistinctKeys(Without(c, u))
    ensures DistinctKeys(c) && HasKey(c, u) ==> |Without(c, u)| == |c| - 1
    ensures DistinctKeys(c) && HasKey(c, u) ==>
              Without(c, u) == c[..KeyIndex(c, u)] + c[KeyIndex(c, u) + 1..]
  {
    WithoutMembers(c, u);
    if DistinctKeys(c) && HasKey(c, u) {
      WithoutSplit(c, u, KeyIndex(c, u));
    }
    if !HasKey(c, u) {
      WithoutAbsent(c, u);
    }
    if DistinctKeys(c) {
      WithoutDistinct(c, u);
    }
    var r := Without(c, u);
    assert forall i | 0 <= i < |r| :: r[i] in r;
  }

  /**
   `cache.put(url, response)`: afterwards `u` answers with `v` and every other
   key answers as before. A new key is appended at the end of the insertion
   order; an existing key is replaced without growing the cache.
   */
  function Put(c: Cache, u: Url, v: Response): (r: Cache)
    ensures Match(r, u) == Some(v)
    ensures forall k | k != u :: Match(r, k) == Match(c, k)
    ensures !HasKey(c, u) ==> r == c + [(u, v)]
    ensures HasKey(c, u) ==> r == c[..KeyIndex(c, u)] + c[KeyIndex(c, u) + 1..] + [(u, v)]
    ensures |r| == if HasKey(c, u) then |c| else |c| + 1
    ensures r[|r| - 1] == (u, v)
  {
    var r := Delete(c, u) + [(u, v)];
    PutMatches(c, u, v);
    r
  }

  /** Appending the new pair after deleting the key's entry answers `v` for `u` and keeps every other key's answer. */
  lemma PutMatches(c: Cache, u: Url, v: Response)
    ensures Match(Delete(c, u) + [(u, v)], u) == Some(v)
    ensures forall k | k != u :: Match(Delete(c, u) + [(u, v)], k) == Match(c, k)
  {
    var d := Delete(c, u);
    var r := d + [(u, v)];
    assert forall i | 0 <= i < |d| :: d[i] in d;
    forall k | k != u
      ensures Match(r, k) == Match(c, k)
    {
      MatchAppend(d, [(u, v)], k);
      if HasKey(c, k) {
        var i :| 0 <= i < |c| && c[i].0 == k;
        assert c[i] in d;
        var j :| 0 <= j < |d| && d[j] == c[i];
        MatchIsTheEntry(c, i);
        MatchIsTheEntry(d, j);
      } else {
        assert !HasKey([(u, v)], k);
      }
    }
    MatchAppend(d, [(u, v)], u);
  }

  lemma {:induction false} MatchAppend(a: seq<Entry>, b: seq<Entry>, k: Url)
    ensures Match(a + b, k) == if HasKey(a, k) then Match(a, k) else Match(b, k)
    decreases |a|
  {
    if |a| == 0 {
      assert a + b == b;
    } else if a[0].0 == k {
      assert (a + b)[0] == a[0];
    } else {
      assert (a + b)[1..] == a[1..] + b;
      MatchAppend(a[1..], b, k);
      assert HasKey(a, k) <==> HasKey(a[1..], k) by {
        assert forall i | 1 <= i < |a| :: a[i] == a[1..][i - 1];
        assert forall i | 0 <= i < |a| - 1 :: a[1..][i] == a[i + 1];
      }
    }
  }

  /** Deleting the oldest key leaves the entries after it. */
  lemma DeleteFirst(c: Cache)
    requires |c| > 0
    ensures Delete(c, c[0].0) == c[1..]
  {
    WithoutSplit(c, c[0].0, 0);
    assert c[..0] + c[1..] == c[1..];
  }

  /** Deletes the given keys one after another, as the eviction pass's `Promise.all` of deletes does. */
  function DeleteKeys(c: Cache, ks: seq<Url>): (r: Cache)
    ensures |r| <= |c|
    decreases |ks|
  {
    if |ks| == 0 then c else DeleteKeys(Delete(c, ks[0]), ks[1..])
  }

  /** Deleting the first `k` keys of the insertion order leaves exactly the suffix. */
  lemma {:induction false} DeleteOldest(c: Cache, k: nat)
    requires k <= |c|
    ensures DeleteKeys(c, Keys(c)[..k]) == c[k..]
    decreases k
  {
    if k > 0 {
      var ks := Keys(c)[..k];
      var tail := c[1..];
      DropKeepsDistinct(c, 1);
      DeleteFirst(c);
      assert Delete(c, ks[0]) == tail;
      assert ks[1..] == Keys(tail)[..k - 1];
      DeleteOldest(tail, k - 1);
      assert tail[k - 1..] == c[k..];
    }
  }

  /**
   `manageCacheSize(cache, maxSize)`: when the cache holds `maxSize` entries
   or more, the oldest fifth of them (`Math.floor(n * 0.2)`, which is `n / 5`
   for every cache size) is deleted and the remaining entries keep their
   order; a smaller cache is left as it is.
   */
  function ManageCacheSize(c: Cache, maxSize: int): (r: Cache)
    ensures |c| >= maxSize ==> r == c[|c| / 5..]
    ensures |c| < maxSize ==> r == c
  {
    if |c| >= maxSize then
      DeleteOldest(c, |c| / 5);
      DeleteKeys(c, Keys(c)[..|c| / 5])
    else c
  }

  predicate DistinctUrls(urls: seq<Url>) {
    forall i, j | 0 <= i < j < |urls| :: urls[i] != urls[j]
  }

  /** Every fetch of the batch resolved to an `ok` response. */
  predicate AllOk(urls: seq<Url>, fetch: Url -> Net) {
    forall i | 0 <= i < |urls| :: fetch(urls[i]).Got? && fetch(urls[i]).response.Ok()
  }

  /** The puts of a successful batch, in list order. */
  function PutAll(c: Cache, urls: seq<Url>, fetch: Url -> Net): Cache
    requires AllOk(urls, fetch)
    decreases |urls|
  {
    if |urls| == 0 then c else PutAll(Put(c, urls[0], fetch(urls[0]).response), urls[1..], fetch)
  }

  /** Each listed URL ends up answering with its own response; every other key is left alone. */
  lemma {:induction false} PutAllStoresBatch(c: Cache, urls: seq<Url>, fetch: Url -> Net)
    requires DistinctUrls(urls)
    requires AllOk(urls, fetch)
    ensures forall i | 0 <= i < |urls| :: Match(PutAll(c, urls, fetch), urls[i]) == Some(fetch(urls[i]).response)
    ensures forall k | k !in urls :: Match(PutAll(c, urls, fetch), k) == Match(c, k)
    decreases |urls|
  {
    if |urls| > 0 {
      var tail := urls[1..];
      var c1 := Put(c, urls[0], fetch(urls[0]).response);
      assert forall i | 0 <= i < |tail| :: tail[i] == urls[i + 1];
      assert AllOk(tail, fetch);
      PutAllStoresBatch(c1, tail, fetch);
      var r := PutAll(c, urls, fetch);
      assert r == PutAll(c1, tail, fetch);
      assert urls[0] !in tail;
      forall i | 0 <= i < |urls|
        ensures Match(r, urls[i]) == Some(fetch(urls[i]).response)
      {
        if i > 0 {
          assert urls[i] == tail[i - 1];
        }
      }
      forall k | k !in urls
        ensures Match(r, k) == Match(c, k)
      {
        assert k !in tail && k != urls[0];
      }
    }
  }

  /**
   `cache.addAll(urls)`: rejects, storing nothing, when a request is listed
   twice, when a fetch fails or when a response is not `ok`; otherwise every
   listed URL answers with its fetched response and every other key is kept.
   */
  function AddAll(c: Cache, urls: seq<Url>, fetch: Url -> Net): (r: Option<Cache>)
    ensures r.Some? <==> DistinctUrls(urls) && AllOk(urls, fetch)
    ensures r.Some? ==> forall i | 0 <= i < |urls| :: Match(r.value, urls[i]) == Some(fetch(urls[i]).response)
    ensures r.Some? ==> forall k | k !in urls :: Match(r.value, k) == Match(c, k)
  {
    if DistinctUrls(urls) && AllOk(urls, fetch) then
      PutAllStoresBatch(c, urls, fetch);
      Some(PutAll(c, urls, fetch))
    else None
  }
}

=== FILE: gallery_routing.dfy ===
/**
 How the galleries' image URLs meet the worker: every source the universal
 and the simple gallery generate, `img/image_<n>.webp`, resolved against any
 page directory, matches the worker's gallery pattern, so each such request
 is served by the gallery-image handler and its bounded cache.
 */
module GalleryRouting {

  import opened Text
  import opened Worker
  import UniversalGallery
  import SimpleGallery

  /** The path of a generated source under any directory has the gallery shape. */
  lemma SourcePathIsGalleryPath(dir: string, n: nat, src: string)
    requires src == "img/image_" + Decimal(n) + ".webp"
    ensures IsGalleryPath(dir + "/" + src)
  {
    var digits := Decimal(n);
    var p := dir + GalleryPrefix + digits + GallerySuffix;
    assert dir + "/" + src == p by {
      assert GalleryPrefix == "/" + "img/image_";
      assert src == "img/image_" + digits + ".webp";
    }
    GalleryPathAccepted(dir, digits);
  }

  /**
   A request for image `n` of either gallery, from a page in directory
   `dir`, takes the gallery-image route whatever its destination.
   */
  lemma GallerySourcesRouteToGalleryHandler(dir: string, n: nat, req: Request)
    requires 1 <= n <= UniversalGallery.ImageCount
    requires req.pathname == dir + "/" + UniversalGallery.LoadAllImages()[n - 1].src ||
             req.pathname == dir + "/" + SimpleGallery.AllPhotos()[n - 1].src
    ensures Classify(req) == GalleryImage
  {
    SourcePathIsGalleryPath(dir, n, "img/image_" + Decimal(n) + ".webp");
  }
}

=== FILE: mobile_gallery.dfy ===
/**
 The navigation arithmetic of `MobileOptimizedGallery`
 (`js/mobile-optimized-gallery.js`): the 180 images split into batches of
 `imagesPerBatch`, the previous/next batch buttons and when they are
 disabled, the image numbers a batch renders, the lightbox's arrow and
 swipe navigation, and the row/column placement of the desktop grid.
 */
module MobileGallery {

  import opened Optional
  import opened Paging

  const TotalImages: nat := 180

  /**
   `options.imagesPerBatch || (isMobile ? 10 : 12)`: a missing or zero option
   falls back to the device default, so a batch always holds at least one image.
   */
  function BatchSize(option: Option<nat>, mobile: bool): (n: nat)
    ensures n >= 1
    ensures option.Some? && option.value != 0 ==> n == option.value
    ensures (option.None? || option.value == 0) ==> n == (if mobile then 10 else 12)
  {
    if option.Some? && option.value != 0 then option.value else if mobile then 10 else 12
  }

  /** `Math.ceil(totalImages / imagesPerBatch)`: enough batches for every image, and no empty one. */
  function TotalBatches(perBatch: nat, total: nat): (n: nat)
    requires perBatch >= 1
    ensures n * perBatch >= total
    ensures n == 0 || (n - 1) * perBatch < total
    ensures total >= 1 ==> n >= 1
  {
    CeilDiv(total, perBatch)
  }

  /** The previous button is disabled on batch 0. */
  predicate PrevBatchDisabled(batch: int) {
    batch == 0
  }

  /** The next button is disabled on the last batch, or beyond it. */
  predicate NextBatchDisabled(batch: int, perBatch: nat, total: nat)
    requires perBatch >= 1
  {
    batch >= TotalBatches(perBatch, total) - 1
  }

  predicate ValidBatch(batch: int, perBatch: nat, total: nat)
    requires perBatch >= 1
  {
    0 <= batch < TotalBatches(perBatch, total)
  }

  /**
   `goToPreviousBatch`: back one batch when `currentBatch > 0`, else nothing;
   from a batch of 0 or above it moves exactly when the button is enabled.
   */
  function GoToPreviousBatch(batch: int): (r: int)
    ensures r == batch - 1 || r == batch
    ensures batch >= 0 ==> (r != batch <==> !PrevBatchDisabled(batch))
    ensures batch >= 0 ==> r >= 0
  {
    if batch > 0 then batch - 1 else batch
  }

  /**
   `goToNextBatch`: forward one batch while it is not the last, else nothing;
   it moves exactly when the button is enabled and never leaves the batches.
   */
  function GoToNextBatch(batch: int, perBatch: nat, total: nat): (r: int)
    requires perBatch >= 1
    ensures r == batch + 1 || r == batch
    ensures r != batch <==> !NextBatchDisabled(batch, perBatch, total)
    ensures ValidBatch(batch, perBatch, total) ==> ValidBatch(r, perBatch, total)
  {
    if batch < TotalBatches(perBatch, total) - 1 then batch + 1 else batch
  }

  /** Both buttons keep the batch valid, and each undoes the other whenever it is enabled. */
  lemma BatchNavigation(batch: int, perBatch: nat, total: nat)
    requires perBatch >= 1
    requires ValidBatch(batch, perBatch, total)
    ensures ValidBatch(GoToPreviousBatch(batch), perBatch, total)
    ensures !PrevBatchDisabled(batch) ==> GoToNextBatch(GoToPreviousBatch(batch), perBatch, total) == batch
    ensures !NextBatchDisabled(batch, perBatch, total) ==> GoToPreviousBatch(GoToNextBatch(batch, perBatch, total)) == batch
  {
  }

  /** The image numbers `1, 2, ..., total`. */
  function Numbers(total: nat): (r: seq<int>)
    ensures |r| == total
    ensures forall i | 0 <= i < total :: r[i] == i + 1
  {
    seq(total, i requires 0 <= i < total => i + 1)
  }

  /**
   The loop of `renderMobileBatch` and `loadBatch`: image numbers
   `start + 1` to `end`, where `start = batch * perBatch` and
   `end = min(start + perBatch, total)`.
   */
  function BatchImages(batch: nat, perBatch: nat, total: nat): (r: seq<int>)
    requires perBatch >= 1
    ensures |r| <= perBatch
    ensures |r| == Max(0, Min(perBatch, total - batch * perBatch))
    ensures forall i | 0 <= i < |r| :: 1 <= r[i] <= total && r[i] == batch * perBatch + i + 1
    ensures batch < TotalBatches(perBatch, total) ==> |r| >= 1
  {
    var start := batch * perBatch;
    var end := Min(start + perBatch, total);
    var r := if end <= start then [] else seq(end - start, i requires 0 <= i < end - start => start + i + 1);
    assert batch < TotalBatches(perBatch, total) ==> start < total by {
      if batch < TotalBatches(perBatch, total) {
        ChunkStart(total, perBatch, batch, start);
      }
    }
    r
  }

  /** A batch is the matching chunk of the list of all image numbers. */
  lemma BatchIsChunk(batch: nat, perBatch: nat, total: nat)
    requires perBatch >= 1
    ensures BatchImages(batch, perBatch, total) == Chunk(Numbers(total), batch, perBatch)
  {
  }

  /** All batches of one batch size, first to last. */
  function AllBatches(perBatch: nat, total: nat): (bs: seq<seq<int>>)
    requires perBatch >= 1
    ensures |bs| == TotalBatches(perBatch, total)
    ensures forall b | 0 <= b < |bs| :: bs[b] == BatchImages(b, perBatch, total)
  {
    seq(TotalBatches(perBatch, total), b requires 0 <= b < TotalBatches(perBatch, total) => BatchImages(b, perBatch, total))
  }

  /**
   The batches partition the images: laid end to end they list every image
   number from 1 to `total` exactly once, in order.
   */
  lemma BatchesPartition(perBatch: nat, total: nat)
    requires perBatch >= 1
    ensures Flatten(AllBatches(perBatch, total)) == Numbers(total)
  {
    var n := TotalBatches(perBatch, total);
    var chunks := Chunks(Numbers(total), 0, n, perBatch);
    forall b | 0 <= b < n
      ensures AllBatches(perBatch, total)[b] == chunks[b]
    {
      BatchIsChunk(b, perBatch, total);
      ChunksAt(Numbers(total), 0, n, perBatch, b);
    }
    assert AllBatches(perBatch, total) == chunks;
    ChunksPartition(Numbers(total), perBatch);
  }

  /** `updateVisibleItems` on the desktop: the first `min(imagesPerBatch, totalImages)` numbers, which is batch 0. */
  function DesktopVisible(perBatch: nat, total: nat): (r: seq<int>)
    requires perBatch >= 1
    ensures r == BatchImages(0, perBatch, total)
  {
    seq(Min(perBatch, total), i requires 0 <= i < Min(perBatch, total) => i + 1)
  }

  // ---------------------------------------------------------------------------
  // Lightbox
  // ---------------------------------------------------------------------------

  /**
   The lightbox arrows: `Math.max(1, Math.min(totalImages, imageNum + direction))`.
   The result is an image number, and it is the requested one whenever that exists.
   */
  function LightboxStep(imageNum: int, direction: int, total: nat): (r: int)
    ensures total >= 1 ==> 1 <= r <= total
    ensures 1 <= imageNum + direction <= total ==> r == imageNum + direction
    ensures imageNum + direction < 1 ==> r == 1
  {
    Max(1, Min(total, imageNum + direction))
  }

  /** `Math.abs` on the touch deltas, which are differences of `clientX`/`clientY` coordinates (not whole pixels). */
  function Abs(x: real): real {
    if x < 0.0 then -x else x
  }

  /** The gesture counts as a horizontal swipe: mostly sideways and longer than 50 pixels. */
  predicate HorizontalSwipe(dx: real, dy: real) {
    Abs(dx) > Abs(dy) && Abs(dx) > 50.0
  }

  /**
   The touch-end handler of `addSwipeSupport`: a right swipe opens the
   previous image when there is one, a left swipe the next one when there is
   one, anything else opens nothing.
   */
  function Swipe(imageNum: int, dx: real, dy: real, total: nat): (r: Option<int>)
    ensures r.Some? <==> HorizontalSwipe(dx, dy) && ((dx > 0.0 && imageNum > 1) || (dx < 0.0 && imageNum < total))
    ensures r.Some? && dx > 0.0 ==> r.value == imageNum - 1
    ensures r.Some? && dx < 0.0 ==> r.value == imageNum + 1
    ensures r.Some? && 1 <= imageNum <= total ==> 1 <= r.value <= total
  {
    if HorizontalSwipe(dx, dy) then
      if dx > 0.0 && imageNum > 1 then Some(imageNum - 1)
      else if dx < 0.0 && imageNum < total then Some(imageNum + 1)
      else None
    else None
  }

  /** A swipe that opens an image opens the one the matching arrow opens. */
  lemma SwipeAgreesWithArrows(imageNum: int, dx: real, dy: real, total: nat)
    requires 1 <= imageNum <= total
    requires Swipe(imageNum, dx, dy, total).Some?
    ensures Swipe(imageNum, dx, dy, total).value == LightboxStep(imageNum, if dx > 0.0 then -1 else 1, total)
  {
  }

  /** A swipe of 50.5 pixels to the left, which no whole-pixel model could express, opens the next image. */
  lemma FractionalSwipeOpensNeighbour()
    ensures Swipe(5, -50.5, 0.0, TotalImages) == Some(6)
    ensures Swipe(5, 50.0, 0.0, TotalImages) == None
  {
  }

  // ---------------------------------------------------------------------------
  // Desktop grid placement
  // ---------------------------------------------------------------------------

  /** `initVirtualization`: two images per row on a phone, three on the desktop. */
  function ItemsPerRow(mobile: bool): (n: nat)
    ensures n >= 1
  {
    if mobile then 2 else 3
  }

  /**
   `renderDesktopGrid`: image `n` goes to row `floor((n - 1) / itemsPerRow)`
   and column `(n - 1) % itemsPerRow`; reading the cells row by row gives
   back the image order.
   */
  function DesktopCell(imageNum: int, perRow: nat): (cell: (int, int))
    requires perRow >= 1
    requires imageNum >= 1
    ensures 0 <= cell.1 < perRow
    ensures cell.0 >= 0
    ensures cell.0 * perRow + cell.1 == imageNum - 1
  {
    ((imageNum - 1) / perRow, (imageNum - 1) % perRow)
  }

  /** Two different images never share a cell. */
  lemma DesktopCellsDistinct(m: int, n: int, perRow: nat)
    requires perRow >= 1
    requires 1 <= m && 1 <= n
    requires m != n
    ensures DesktopCell(m, perRow) != DesktopCell(n, perRow)
  {
  }

  // ---------------------------------------------------------------------------
  // Batch state
  // ---------------------------------------------------------------------------

  datatype Viewer = Viewer(batch: int, perBatch: nat, mobile: bool)

  /** The constructor and `loadInitialBatch`: batch 0 of the chosen size. */
  function Init(option: Option<nat>, mobile: bool): (v: Viewer)
    ensures v.batch == 0 && v.perBatch >= 1
    ensures Valid(v)
  {
    Viewer(0, BatchSize(option, mobile), mobile)
  }

  predicate Valid(v: Viewer) {
    v.perBatch >= 1 && ValidBatch(v.batch, v.perBatch, TotalImages)
  }

  function OnPrevBatch(v: Viewer): (v': Viewer)
    ensures v'.batch == GoToPreviousBatch(v.batch) && v'.perBatch == v.perBatch
    ensures Valid(v) ==> Valid(v')
  {
    v.(batch := GoToPreviousBatch(v.batch))
  }

  function OnNextBatch(v: Viewer): (v': Viewer)
    requires v.perBatch >= 1
    ensures v'.batch == GoToNextBatch(v.batch, v.perBatch, TotalImages) && v'.perBatch == v.perBatch
    ensures Valid(v) ==> Valid(v')
  {
    v.(batch := GoToNextBatch(v.batch, v.perBatch, TotalImages))
  }

  /** What a valid viewer shows on a phone: between one and `perBatch` images of the current batch. */
  function Shown(v: Viewer): (r: seq<int>)
    requires Valid(v)
    ensures 1 <= |r| <= v.perBatch
    ensures |r| == Min(v.perBatch, TotalImages - v.batch * v.perBatch)
    ensures forall i | 0 <= i < |r| :: 1 <= r[i] <= TotalImages && r[i] == v.batch * v.perBatch + i + 1
  {
    BatchImages(v.batch, v.perBatch, TotalImages)
  }
}

=== FILE: paging.dfy ===
/**
 Paging arithmetic shared by the galleries: `Math.ceil` of a count over a
 page size, `Array.prototype.slice` with non-negative bounds, the chunk a
 page or batch index selects, and the one-step moves of the previous/next
 buttons together with the conditions that disable them.
 */
module Paging {

  /** `imagesPerPage` of both grid galleries. */
  const ImagesPerPage: nat := 24

  function Min(a: int, b: int): int {
    if a <= b then a else b
  }

  function Max(a: int, b: int): int {
    if a >= b then a else b
  }

  /** `Math.ceil(n / d)`: the least number of groups of `d` that hold `n` items. */
  function CeilDiv(n: nat, d: nat): (q: nat)
    requires d > 0
    ensures q * d >= n
    ensures q == 0 || (q - 1) * d < n
  {
    var q := (n + d - 1) / d;
    assert (n + d - 1) == q * d + (n + d - 1) % d;
    q
  }

  /** `s.slice(from, to)` for non-negative bounds: bounds past the end are cut back to the end. */
  function Slice<T>(s: seq<T>, from: nat, to: nat): (r: seq<T>)
    ensures |r| == if from >= |s| || to <= from then 0 else Min(to, |s|) - from
    ensures forall i | 0 <= i < |r| :: r[i] == s[from + i]
  {
    if from >= |s| || to <= from then [] else s[from..Min(to, |s|)]
  }

  /** The `index`-th group of `size` consecutive items (0-based), short or empty at the end. */
  function Chunk<T>(items: seq<T>, index: nat, size: nat): (r: seq<T>)
    requires size > 0
    ensures |r| <= size
    ensures |r| == Max(0, Min(size, |items| - index * size))
    ensures forall i | 0 <= i < |r| :: r[i] == items[index * size + i]
  {
    Slice(items, index * size, index * size + size)
  }

  /**
   The grid slice of page `page` (1-based): at most `ImagesPerPage` items,
   the ones from index `(page - 1) * ImagesPerPage` on.
   */
  function PageSlice<T>(items: seq<T>, page: nat): (r: seq<T>)
    requires page >= 1
    ensures |r| <= ImagesPerPage
    ensures |r| == Max(0, Min(ImagesPerPage, |items| - (page - 1) * ImagesPerPage))
    ensures forall i | 0 <= i < |r| :: r[i] == items[(page - 1) * ImagesPerPage + i]
  {
    Chunk(items, page - 1, ImagesPerPage)
  }

  /** The chunks with indices `from`, `from + 1`, ..., `from + count - 1`. */
  function Chunks<T>(items: seq<T>, from: nat, count: nat, size: nat): (cs: seq<seq<T>>)
    requires size > 0
    ensures |cs| == count
    decreases count
  {
    if count == 0 then [] else [Chunk(items, from, size)] + Chunks(items, from + 1, count - 1, size)
  }

  /** The `k`-th chunk of a run is the chunk with index `from + k`. */
  lemma {:induction false} ChunksAt<T>(items: seq<T>, from: nat, count: nat, size: nat, k: nat)
    requires size > 0
    requires k < count
    ensures Chunks(items, from, count, size)[k] == Chunk(items, from + k, size)
    decreases k
  {
    if k > 0 {
      ChunksAt(items, from + 1, count - 1, size, k - 1);
    }
  }

  function Flatten<T>(xss: seq<seq<T>>): seq<T>
    decreases |xss|
  {
    if |xss| == 0 then [] else xss[0] + Flatten(xss[1..])
  }

  /** A chunk index below the chunk count starts inside the list, and the next one starts `size` later. */
  lemma ChunkStart(n: nat, size: nat, k: nat, start: nat)
    requires size > 0
    requires k < CeilDiv(n, size)
    requires start == k * size
    ensures start < n
    ensures start + size == (k + 1) * size
  {
    var total := CeilDiv(n, size);
    assert k * size <= (total - 1) * size;
  }

  /** The chunk index equal to the chunk count starts at or past the end of the list. */
  lemma ChunkEnd(n: nat, size: nat, k: nat, start: nat)
    requires size > 0
    requires k == CeilDiv(n, size)
    requires start == k * size
    ensures start >= n
  {
  }

  /** The chunk whose first index is `start` is the slice from `start`, cut at the end of the list. */
  lemma ChunkAt<T>(items: seq<T>, size: nat, k: nat, start: nat)
    requires size > 0
    requires start == k * size
    ensures Chunk(items, k, size) == items[Min(start, |items|)..Min(start + size, |items|)]
  {
  }

  /** Laying out a run of chunks starts with its first chunk. */
  lemma ChunksUnfold<T>(items: seq<T>, from: nat, count: nat, size: nat)
    requires size > 0
    requires count > 0
    ensures Flatten(Chunks(items, from, count, size)) == Chunk(items, from, size) + Flatten(Chunks(items, from + 1, count - 1, size))
  {
    var cs := Chunks(items, from, count, size);
    assert cs[1..] == Chunks(items, from + 1, count - 1, size);
  }

  /** The chunks from index `k` to the last one, laid end to end, are the items from `k * size` on. */
  lemma {:induction false} ChunksFromCover<T>(items: seq<T>, size: nat, k: nat, start: nat)
    requires size > 0
    requires k <= CeilDiv(|items|, size)
    requires start == k * size
    ensures Flatten(Chunks(items, k, CeilDiv(|items|, size) - k, size)) == items[Min(start, |items|)..]
    decreases CeilDiv(|items|, size) - k
  {
    var total := CeilDiv(|items|, size);
    if k == total {
      ChunkEnd(|items|, size, k, start);
    } else {
      ChunkStart(|items|, size, k, start);
      ChunksUnfold(items, k, total - k, size);
      ChunksFromCover(items, size, k + 1, start + size);
      ChunkAt(items, size, k, start);
      var m := Min(start + size, |items|);
      assert items[start..] == items[start..m] + items[m..];
    }
  }

  /**
   The chunks of one list partition it: laid end to end, chunk 0 to the last
   one, they give back exactly the list, each item once and in order.
   */
  lemma ChunksPartition<T>(items: seq<T>, size: nat)
    requires size > 0
    ensures Flatten(Chunks(items, 0, CeilDiv(|items|, size), size)) == items
  {
    ChunksFromCover(items, size, 0, 0);
  }

  /** The previous-page button is disabled on the first page. */
  predicate PrevDisabled(cur: int) {
    cur <= 1
  }

  /** The next-page button is disabled on the last page, or beyond it. */
  predicate NextDisabled(cur: int, total: int) {
    cur >= total
  }

  /**
   The previous-page click handler: back one page when there is one, else
   nothing. It moves exactly when the button is enabled, and never leaves
   page 1 or above, so a page within `[1, total]` stays there.
   */
  function PrevPage(cur: int): (r: int)
    ensures r == cur - 1 || r == cur
    ensures r != cur <==> !PrevDisabled(cur)
    ensures cur >= 1 ==> 1 <= r <= cur
  {
    if cur > 1 then cur - 1 else cur
  }

  /**
   The next-page click handler: forward one page while `cur < total`, else
   nothing. It moves exactly when the button is enabled, and keeps the page
   within `[1, total]`.
   */
  function NextPage(cur: int, total: int): (r: int)
    ensures r == cur + 1 || r == cur
    ensures r != cur <==> !NextDisabled(cur, total)
    ensures 1 <= cur <= total ==> 1 <= r <= total
  {
    if cur < total then cur + 1 else cur
  }

  /** Whenever either button is enabled, the other one undoes its move. */
  lemma PrevNextUndo(cur: int, total: int)
    ensures cur >= 1 && !NextDisabled(cur, total) ==> PrevPage(NextPage(cur, total)) == cur
    ensures !PrevDisabled(cur) && cur <= total ==> NextPage(PrevPage(cur), total) == cur
  {
  }
}

=== FILE: simple_gallery.dfy ===
/**
 The fixed gallery of `js/simple-universal-gallery.js`: 181 generated
 photos shown 24 to a page over 8 pages, a visible-count statistic, the
 5-button page window computed without the back-adjustment of the full
 gallery, the previous/next buttons, and a search box that only returns to
 the first page.
 */
module SimpleGallery {

  import opened Text
  import opened Paging
  import UniversalGallery

  const TotalImages: nat := 181

  datatype Photo = Photo(id: nat, src: string, alt: string, title: string, location: string)

  const Titles: seq<string> := [
    "Gartengestaltung", "Terrasse", "Naturstein", "Pflasterung",
    "Sichtschutz", "Rasenfläche", "Bepflanzung", "Wegebau"
  ]

  const Locations: seq<string> := [
    "Stuttgart", "Ludwigsburg", "Waiblingen", "Remseck",
    "Fellbach", "Kornwestheim", "Esslingen", "Böblingen"
  ]

  /** `getTitle`: one of the eight titles, repeating every eight numbers. */
  function TitleOf(num: nat): (t: string)
    ensures t in Titles
  {
    Titles[num % |Titles|]
  }

  /** `getLocation`: one of the eight locations, repeating every eight numbers. */
  function LocationOf(num: nat): (l: string)
    ensures l in Locations
  {
    Locations[num % |Locations|]
  }

  function MakePhoto(num: nat): Photo {
    var n := Decimal(num);
    Photo(num, "img/image_" + n + ".webp", "Gartenbau Projekt " + n, TitleOf(num), LocationOf(num))
  }

  /**
   The generation loop: photo `i` (1-based) sits at index `i - 1` with id
   `i` and source `img/image_<i>.webp`.
   */
  function AllPhotos(): (r: seq<Photo>)
    ensures |r| == TotalImages
    ensures forall i | 0 <= i < |r| :: r[i].id == i + 1 && r[i] == MakePhoto(i + 1)
    ensures forall i | 0 <= i < |r| :: r[i].src == "img/image_" + Decimal(i + 1) + ".webp"
  {
    seq(TotalImages, i requires 0 <= i < TotalImages => MakePhoto(i + 1))
  }

  /** `Math.ceil(181 / 24)`. */
  function TotalPages(): (n: nat)
    ensures n == 8
  {
    CeilDiv(TotalImages, ImagesPerPage)
  }

  /** `renderGallery`: the photos of page `page`, at most 24 of them, from index `(page - 1) * 24`. */
  function PagePhotos(page: nat): (r: seq<Photo>)
    requires page >= 1
    ensures |r| <= ImagesPerPage
    ensures forall i | 0 <= i < |r| :: r[i].id == (page - 1) * ImagesPerPage + i + 1
  {
    PageSlice(AllPhotos(), page)
  }

  /** The count `updateStats` shows: `Math.min(24, 181 - (page - 1) * 24)`. */
  function VisibleCount(page: int): int {
    Min(ImagesPerPage, TotalImages - (page - 1) * ImagesPerPage)
  }

  /**
   On every page from 1 to 8 the statistic agrees with the photos actually
   rendered: 24 on pages 1 to 7 and 13 on page 8.
   */
  lemma VisibleCountMatchesPage(page: nat)
    requires 1 <= page <= TotalPages()
    ensures VisibleCount(page) == |PagePhotos(page)|
    ensures VisibleCount(page) == if page < 8 then 24 else 13
  {
  }

  /**
   The page window of `setupPagination`: up to 2 pages either side of the
   current one, starting no lower than page 1 and cut at the last page, with
   no shift back when the cut shortens it.
   */
  function PageWindow(cur: int, total: int): (w: (int, int))
    ensures 1 <= w.0
    ensures w.1 <= total
    ensures w.1 - w.0 + 1 <= UniversalGallery.MaxButtons
    ensures 1 <= cur <= total ==> w.0 <= cur <= w.1
  {
    var start := Max(1, cur - UniversalGallery.MaxButtons / 2);
    (start, Min(total, start + UniversalGallery.MaxButtons - 1))
  }

  /**
   Without the back-adjustment the window is short exactly near the end:
   with at least 5 pages it shows 5 buttons iff the current page is at least
   two pages before the last. There it agrees with the full gallery's window.
   */
  lemma WindowFullUnlessNearEnd(cur: int, total: int)
    requires total >= 5
    requires 1 <= cur <= total
    ensures var w := PageWindow(cur, total); w.1 - w.0 + 1 == 5 <==> cur <= total - 2
    ensures cur <= total - 2 ==> PageWindow(cur, total) == UniversalGallery.PageWindow(cur, total)
  {
  }

  /** On page 8 of 8 only pages 6 to 8 are offered, where the full gallery offers 4 to 8. */
  lemma LastPageWindow()
    ensures PageWindow(8, 8) == (6, 8)
    ensures UniversalGallery.PageWindow(8, 8) == (4, 8)
  {
  }

  // ---------------------------------------------------------------------------
  // Page state and its handlers
  // ---------------------------------------------------------------------------

  predicate ValidPage(page: int) {
    1 <= page <= TotalPages()
  }

  function OnPrev(page: int): (r: int)
    ensures r == PrevPage(page)
    ensures ValidPage(page) ==> ValidPage(r)
  {
    PrevPage(page)
  }

  function OnNext(page: int): (r: int)
    ensures r == NextPage(page, TotalPages())
    ensures ValidPage(page) ==> ValidPage(r)
  {
    NextPage(page, TotalPages())
  }

  /** The search box: the term is read but no photo is filtered; only the page returns to 1. */
  function OnSearch(page: int, term: string): (r: int)
    ensures ValidPage(r) && r == 1
  {
    1
  }

  /** A page-number click: the page becomes the button's number, which the window took from `[1, 8]`. */
  function OnPageButton(page: int, pageNumber: nat): (r: int)
    requires PageWindow(page, TotalPages()).0 <= pageNumber <= PageWindow(page, TotalPages()).1
    ensures r == pageNumber
    ensures ValidPage(r)
  {
    ParseDecimalOfDecimal(pageNumber);
    ParseDecimal(Decimal(pageNumber))
  }
}

=== FILE: text.dfy ===
/** The Some/None wrapper used wherever the source returns `undefined` for "nothing". */
module Optional {

  datatype Option<+T> = None | Some(value: T)
}

/**
 Character-level helpers shared by the worker's path pattern and the galleries:
 ASCII digits (the `\d` class of JavaScript regular expressions), decimal
 printing of image numbers as template literals do it, `parseInt` on such a
 decimal string, and `String.prototype.includes`.
 */
module Text {

  predicate IsDigit(c: char) {
    '0' <= c <= '9'
  }

  predicate AllDigits(s: string) {
    forall i | 0 <= i < |s| :: IsDigit(s[i])
  }

  function DigitChar(d: nat): (c: char)
    requires d < 10
    ensures IsDigit(c)
    ensures DigitValue(c) == d
  {
    "0123456789"[d]
  }

  function DigitValue(c: char): nat
    requires IsDigit(c)
  {
    (c as int - '0' as int) as nat
  }

  /** The decimal text of `n`, as `${n}` prints a non-negative integer. */
  function Decimal(n: nat): (s: string)
    ensures 1 <= |s|
    ensures AllDigits(s)
    ensures n >= 10 ==> s[0] != '0'
    decreases n
  {
    if n < 10 then [DigitChar(n)] else Decimal(n / 10) + [DigitChar(n % 10)]
  }

  /** `parseInt` of a string of decimal digits. */
  function ParseDecimal(s: string): nat
    requires AllDigits(s)
  {
    if |s| == 0 then 0 else ParseDecimal(s[..|s| - 1]) * 10 + DigitValue(s[|s| - 1])
  }

  /** Reading back a printed number gives the number: the page buttons' labels round-trip. */
  lemma {:induction false} ParseDecimalOfDecimal(n: nat)
    ensures ParseDecimal(Decimal(n)) == n
    decreases n
  {
    var s := Decimal(n);
    if n >= 10 {
      ParseDecimalOfDecimal(n / 10);
      assert s[..|s| - 1] == Decimal(n / 10);
    }
  }

  /** `needle` occurs in `haystack` starting at index `i`. */
  predicate OccursAt(haystack: string, needle: string, i: int) {
    0 <= i && i + |needle| <= |haystack| && haystack[i..i + |needle|] == needle
  }

  /** `haystack.includes(needle)`, by scanning the start positions left to right. */
  function Includes(haystack: string, needle: string): (b: bool)
    ensures b <==> exists i :: OccursAt(haystack, needle, i)
    decreases |haystack|
  {
    if |needle| > |haystack| then false
    else if haystack[..|needle|] == needle then (assert OccursAt(haystack, needle, 0); true)
    else
      var rest := Includes(haystack[1..], needle);
      assert forall i :: OccursAt(haystack[1..], needle, i) ==> OccursAt(haystack, needle, i + 1);
      assert forall i | 1 <= i :: OccursAt(haystack, needle, i) ==> OccursAt(haystack[1..], needle, i - 1);
      rest
  }
}

=== FILE: universal_gallery.dfy ===
/**
 The data side of `UniversalGallery` (`js/universal-gallery.js`): the 181
 generated image records, the search filter and the three sort orders, the
 grid page, the 5-button pagination window with its back-adjustment, the
 previous/next buttons and the wrap-around carousel index.

 `toLowerCase` is the parameter `lower` and `Math.random` is the parameter
 `choose`; the state is the record of the fields the event handlers change.
 */
module UniversalGallery {

  import opened Text
  import opened Paging

  const ImageCount: nat := 181

  datatype Image = Image(
    id: nat, src: string, alt: string, caption: string, category: string,
    location: string, year: int, projectType: string, title: string)

  const Categories: seq<string> := ["terrassen", "naturstein", "garten", "wege", "pflege"]

  const Locations: seq<string> := [
    "Stuttgart", "Ludwigsburg", "Waiblingen", "Remseck", "Fellbach", "Kornwestheim",
    "Esslingen", "Böblingen", "Sindelfingen", "Leonberg", "Ditzingen", "Gerlingen"
  ]

  const ProjectTypes: seq<string> := [
    "Komplettgestaltung", "Teilprojekt", "Sanierung", "Neubau", "Modernisierung", "Erweiterung"
  ]

  const Titles: seq<string> := [
    "Moderne Gartengestaltung", "Naturstein Terrasse", "Gepflasterte Einfahrt",
    "Sichtschutz Installation", "Rasenneuanlage", "Bepflanzung & Design",
    "Wasserspiel Anlage", "Outdoor Küche", "Pergola Construction", "Steinmauer Bau"
  ]

  /**
   `getCategoryFromNumber`: residues 1, 2, 3, 4 and 0 modulo 5 give the five
   categories in list order, so consecutive numbers cycle through them.
   */
  function CategoryOf(num: nat): (c: string)
    ensures c == Categories[(num + 4) % 5]
  {
    match num % 5
    case 1 => "terrassen"
    case 2 => "naturstein"
    case 3 => "garten"
    case 4 => "wege"
    case _ => "pflege"
  }

  /** `getYearFromNumber`: always one of the years 2020 to 2024. */
  function YearOf(num: nat): (y: int)
    ensures 2020 <= y <= 2024
  {
    2020 + num % 5
  }

  /** One generated record: every field is a function of the image number. */
  function MakeImage(num: nat): Image {
    var n := Decimal(num);
    Image(
      id := num,
      src := "img/image_" + n + ".webp",
      alt := "Gartenbau Projekt " + n,
      caption := "Projekt " + n + " - Garten- und Landschaftsbau",
      category := CategoryOf(num),
      location := Locations[num % |Locations|],
      year := YearOf(num),
      projectType := ProjectTypes[num % |ProjectTypes|],
      title := Titles[num % |Titles|])
  }

  /** `loadAllImages`: the records for the numbers 1 to 181, in ascending order. */
  function LoadAllImages(): (r: seq<Image>)
    ensures |r| == ImageCount
    ensures forall i | 0 <= i < |r| :: r[i].id == i + 1 && r[i] == MakeImage(i + 1)
    ensures StrictlyAscending(r)
  {
    seq(ImageCount, i requires 0 <= i < ImageCount => MakeImage(i + 1))
  }

  predicate StrictlyAscending(s: seq<Image>) {
    forall i, j | 0 <= i < j < |s| :: s[i].id < s[j].id
  }

  predicate StrictlyDescending(s: seq<Image>) {
    forall i, j | 0 <= i < j < |s| :: s[i].id > s[j].id
  }

  predicate DistinctIds(s: seq<Image>) {
    forall i, j | 0 <= i < j < |s| :: s[i].id != s[j].id
  }

  // ---------------------------------------------------------------------------
  // Search filter
  // ---------------------------------------------------------------------------

  /** The search test on one record: lower-cased alt, location, title or type contains the term. */
  predicate MatchesTerm(img: Image, term: string, lower: string -> string) {
    Includes(lower(img.alt), term) || Includes(lower(img.location), term) ||
    Includes(lower(img.title), term) || Includes(lower(img.projectType), term)
  }

  /** `Array.prototype.filter` with `MatchesTerm`. */
  function Keep(images: seq<Image>, term: string, lower: string -> string): (r: seq<Image>)
    ensures |r| <= |images|
    ensures forall x :: x in r <==> x in images && MatchesTerm(x, term, lower)
    decreases |images|
  {
    if |images| == 0 then []
    else if MatchesTerm(images[0], term, lower) then [images[0]] + Keep(images[1..], term, lower)
    else Keep(images[1..], term, lower)
  }

  /** Filtering a concatenation filters each part: the kept records keep their relative order. */
  lemma {:induction false} KeepConcat(a: seq<Image>, b: seq<Image>, term: string, lower: string -> string)
    ensures Keep(a + b, term, lower) == Keep(a, term, lower) + Keep(b, term, lower)
    decreases |a|
  {
    if |a| == 0 {
      assert a + b == b;
    } else {
      assert (a + b)[0] == a[0];
      assert (a + b)[1..] == a[1..] + b;
      KeepConcat(a[1..], b, term, lower);
    }
  }

  /** Putting a record in front of a strictly ascending list whose ids all exceed its own keeps it strictly ascending. */
  lemma ConsAscending(a: Image, s: seq<Image>)
    requires StrictlyAscending(s)
    requires forall y | y in s :: a.id < y.id
    ensures StrictlyAscending([a] + s)
  {
    var r := [a] + s;
    forall i, j | 0 <= i < j < |r|
      ensures r[i].id < r[j].id
    {
      assert r[j] == s[j - 1];
      if i > 0 {
        assert r[i] == s[i - 1];
      }
    }
  }

  /** A strictly ascending list stays strictly ascending when filtered. */
  lemma {:induction false} KeepAscending(images: seq<Image>, term: string, lower: string -> string)
    requires StrictlyAscending(images)
    ensures StrictlyAscending(Keep(images, term, lower))
    decreases |images|
  {
    if |images| > 0 {
      var tail := images[1..];
      assert StrictlyAscending(tail) by {
        assert forall i | 0 <= i < |tail| :: tail[i] == images[i + 1];
      }
      KeepAscending(tail, term, lower);
      var kept := Keep(tail, term, lower);
      if MatchesTerm(images[0], term, lower) {
        forall y | y in kept
          ensures images[0].id < y.id
        {
          var k :| 0 <= k < |tail| && tail[k] == y;
          assert tail[k] == images[k + 1];
        }
        ConsAscending(images[0], kept);
      }
    }
  }

  /**
   The search step of `applyFilters`: an empty term keeps every record in
   order; any other term keeps exactly the matching records.
   */
  function SearchFilter(images: seq<Image>, term: string, lower: string -> string): (r: seq<Image>)
    ensures term == "" ==> r == images
    ensures term != "" ==> forall x :: x in r <==> x in images && MatchesTerm(x, term, lower)
    ensures |r| <= |images|
  {
    if term == "" then images else Keep(images, term, lower)
  }

  // ---------------------------------------------------------------------------
  // Sorting and shuffling
  // ---------------------------------------------------------------------------

  /** The sort key: the id for `oldest`, the negated id for `newest`. */
  function Rank(a: Image, newestFirst: bool): int {
    if newestFirst then -(a.id as int) else a.id
  }

  /** `a` may precede `b`: by descending id for `newest`, ascending for `oldest`. */
  predicate InOrder(a: Image, b: Image, newestFirst: bool) {
    Rank(a, newestFirst) <= Rank(b, newestFirst)
  }

  predicate SortedBy(s: seq<Image>, newestFirst: bool) {
    forall i, j | 0 <= i < j < |s| :: InOrder(s[i], s[j], newestFirst)
  }

  lemma TailSorted(s: seq<Image>, newestFirst: bool)
    requires |s| > 0
    requires SortedBy(s, newestFirst)
    ensures SortedBy(s[1..], newestFirst)
  {
    assert forall i | 0 <= i < |s| - 1 :: s[1..][i] == s[i + 1];
  }

  /** A record that may precede the head of a sorted list may precede all of it. */
  lemma ConsSorted(a: Image, s: seq<Image>, newestFirst: bool)
    requires SortedBy(s, newestFirst)
    requires |s| > 0 ==> InOrder(a, s[0], newestFirst)
    ensures SortedBy([a] + s, newestFirst)
  {
    var r := [a] + s;
    forall i, j | 0 <= i < j < |r|
      ensures InOrder(r[i], r[j], newestFirst)
    {
      assert r[j] == s[j - 1];
      if i > 0 {
        assert r[i] == s[i - 1];
      } else if j > 1 {
        assert InOrder(s[0], s[j - 1], newestFirst);
      }
    }
  }

  /** One insertion-sort step: `x` placed before the first record it may precede. */
  function Insert(x: Image, s: seq<Image>, newestFirst: bool): (r: seq<Image>)
    requires SortedBy(s, newestFirst)
    ensures |r| == |s| + 1
    ensures SortedBy(r, newestFirst)
    ensures multiset(r) == multiset(s) + multiset{x}
    ensures r[0] == x || (|s| > 0 && r[0] == s[0])
    decreases |s|
  {
    if |s| == 0 then [x]
    else if InOrder(x, s[0], newestFirst) then
      ConsSorted(x, s, newestFirst);
      [x] + s
    else
      TailSorted(s, newestFirst);
      var rest := Insert(x, s[1..], newestFirst);
      assert |s| > 1 ==> InOrder(s[0], s[1], newestFirst);
      ConsSorted(s[0], rest, newestFirst);
      assert s == [s[0]] + s[1..];
      [s[0]] + rest
  }

  /**
   `filtered.sort((a, b) => b.id - a.id)` for `newest` and
   `filtered.sort((a, b) => a.id - b.id)` for `oldest`: a permutation of the
   list in id order.
   */
  function SortById(s: seq<Image>, newestFirst: bool): (r: seq<Image>)
    ensures |r| == |s|
    ensures SortedBy(r, newestFirst)
    ensures multiset(r) == multiset(s)
    decreases |s|
  {
    if |s| == 0 then []
    else
      assert s == [s[0]] + s[1..];
      Insert(s[0], SortById(s[1..], newestFirst), newestFirst)
  }

  /** Putting a record in front of a list with distinct ids, none of them its own, keeps the ids distinct. */
  lemma ConsDistinct(a: Image, s: seq<Image>)
    requires DistinctIds(s)
    requires forall y | y in s :: y.id != a.id
    ensures DistinctIds([a] + s)
  {
    var r := [a] + s;
    forall i, j | 0 <= i < j < |r|
      ensures r[i].id != r[j].id
    {
      assert r[j] == s[j - 1];
      if i > 0 {
        assert r[i] == s[i - 1];
      }
    }
  }

  /** The tail of a list with distinct ids has distinct ids, none equal to the head's. */
  lemma TailDistinct(s: seq<Image>)
    requires |s| > 0
    requires DistinctIds(s)
    ensures DistinctIds(s[1..])
    ensures forall y | y in s[1..] :: y.id != s[0].id
  {
    assert forall j | 0 <= j < |s| - 1 :: s[1..][j] == s[j + 1];
  }

  lemma {:induction false} InsertKeepsIdsDistinct(x: Image, s: seq<Image>, newestFirst: bool)
    requires SortedBy(s, newestFirst)
    requires DistinctIds(s)
    requires forall y | y in s :: y.id != x.id
    ensures DistinctIds(Insert(x, s, newestFirst))
    decreases |s|
  {
    if |s| > 0 {
      if InOrder(x, s[0], newestFirst) {
        ConsDistinct(x, s);
      } else {
        var tail := s[1..];
        TailSorted(s, newestFirst);
        TailDistinct(s);
        forall y | y in tail
          ensures y.id != x.id
        {
          var k :| 0 <= k < |tail| && tail[k] == y;
          assert s[k + 1] == y;
        }
        InsertKeepsIdsDistinct(x, tail, newestFirst);
        var rest := Insert(x, tail, newestFirst);
        forall y | y in rest
          ensures y.id != s[0].id
        {
          assert y in multiset(rest);
          if y == x {
            assert s[0] in s;
          } else {
            assert y in multiset(tail);
          }
        }
        ConsDistinct(s[0], rest);
      }
    }
  }

  /** Sorting a list whose ids differ gives a list whose ids differ. */
  lemma {:induction false} SortKeepsIdsDistinct(s: seq<Image>, newestFirst: bool)
    requires DistinctIds(s)
    ensures DistinctIds(SortById(s, newestFirst))
    decreases |s|
  {
    if |s| > 0 {
      SortKeepsIdsDistinct(s[1..], newestFirst);
      var sorted := SortById(s[1..], newestFirst);
      forall y | y in sorted
        ensures y.id != s[0].id
      {
        assert y in multiset(sorted);
        var k :| 0 <= k < |s[1..]| && s[1..][k] == y;
        assert s[1..][k] == s[k + 1];
      }
      InsertKeepsIdsDistinct(s[0], sorted, newestFirst);
    }
  }

  function Swap<T>(s: seq<T>, i: nat, j: nat): (r: seq<T>)
    requires i < |s| && j < |s|
    ensures multiset(r) == multiset(s)
    ensures |r| == |s|
  {
    s[i := s[j]][j := s[i]]
  }

  /** The loop of `shuffleArray` from position `i` down to 1, `j` drawn from `[0, i]`. */
  function ShuffleDown<T>(s: seq<T>, i: nat, choose: nat -> nat): (r: seq<T>)
    requires i < |s|
    ensures multiset(r) == multiset(s)
    ensures |r| == |s|
    decreases i
  {
    if i == 0 then s else ShuffleDown(Swap(s, i, choose(i) % (i + 1)), i - 1, choose)
  }

  /** `shuffleArray`: Fisher-Yates on a copy, a permutation whatever the random draws. */
  function Shuffle<T>(s: seq<T>, choose: nat -> nat): (r: seq<T>)
    ensures multiset(r) == multiset(s)
  {
    if |s| == 0 then s else ShuffleDown(s, |s| - 1, choose)
  }

  /**
   `applyFilters`: the search filter, then the selected order. Every order,
   including the shuffle and an unknown sort key (which leaves the filtered
   list as it is), is a permutation of the filtered list.
   */
  function ApplyFilters(images: seq<Image>, term: string, sort: string, lower: string -> string, choose: nat -> nat): (r: seq<Image>)
    ensures multiset(r) == multiset(SearchFilter(images, term, lower))
    ensures |r| == |SearchFilter(images, term, lower)|
    ensures sort == "newest" ==> SortedBy(r, true)
    ensures sort == "oldest" ==> SortedBy(r, false)
  {
    var filtered := SearchFilter(images, term, lower);
    var r :=
      if sort == "newest" then SortById(filtered, true)
      else if sort == "oldest" then SortById(filtered, false)
      else if sort == "random" then Shuffle(filtered, choose)
      else filtered;
    assert |r| == |multiset(r)|;
    r
  }

  /** Sorting a list whose ids differ orders them strictly. */
  lemma SortStrict(s: seq<Image>)
    requires DistinctIds(s)
    ensures StrictlyDescending(SortById(s, true))
    ensures StrictlyAscending(SortById(s, false))
  {
    SortKeepsIdsDistinct(s, true);
    SortKeepsIdsDistinct(s, false);
  }

  /**
   On records listed by ascending id, as `loadAllImages` lists them, the
   `newest` order gives strictly descending ids and `oldest` strictly
   ascending ones, whatever the search term.
   */
  lemma SortsAreStrict(images: seq<Image>, term: string, lower: string -> string, choose: nat -> nat)
    requires StrictlyAscending(images)
    ensures StrictlyDescending(ApplyFilters(images, term, "newest", lower, choose))
    ensures StrictlyAscending(ApplyFilters(images, term, "oldest", lower, choose))
  {
    var filtered := SearchFilter(images, term, lower);
    if term != "" {
      KeepAscending(images, term, lower);
    }
    assert DistinctIds(filtered);
    SortStrict(filtered);
    assert ApplyFilters(images, term, "newest", lower, choose) == SortById(filtered, true);
    assert ApplyFilters(images, term, "oldest", lower, choose) == SortById(filtered, false);
  }

  // ---------------------------------------------------------------------------
  // Pagination window and carousel
  // ---------------------------------------------------------------------------

  const MaxButtons: nat := 5

  /**
   The page-number window of `setupPagination`: centred on the current page
   when there is room, shifted back at the end so that it still shows
   `min(5, totalPages)` buttons. For a current page in `[1, totalPages]` the
   window lies in `[1, totalPages]` and contains it.
   */
  function PageWindow(cur: int, total: int): (w: (int, int))
    ensures 1 <= w.0
    ensures w.1 <= total
    ensures w.1 - w.0 + 1 <= MaxButtons
    ensures 1 <= cur <= total ==> w.0 <= cur <= w.1 && w.1 - w.0 + 1 == Min(MaxButtons, total)
  {
    var start := Max(1, cur - MaxButtons / 2);
    var end := Min(total, start + MaxButtons - 1);
    if end - start < MaxButtons - 1 then (Max(1, end - MaxButtons + 1), end) else (start, end)
  }

  /**
   The carousel's previous button: back one slide, from the first slide to
   the last. On a non-empty list it stays on the list and undoes `CarouselNext`.
   */
  function CarouselPrev(index: int, len: nat): (r: int)
    ensures len >= 1 && 0 <= index < len ==> 0 <= r < len
    ensures index == 0 ==> r == len - 1
    ensures index > 0 ==> r == index - 1
  {
    if index > 0 then index - 1 else len - 1
  }

  /**
   The carousel's next button: forward one slide, from the last slide (or
   anywhere beyond it) back to the first, so it always lands on a non-empty list.
   */
  function CarouselNext(index: int, len: nat): (r: int)
    ensures len >= 1 && index >= -1 ==> 0 <= r < len
    ensures index >= len - 1 ==> r == 0
    ensures index < len - 1 ==> r == index + 1
  {
    if index < len - 1 then index + 1 else 0
  }

  /** The two carousel buttons undo each other on every slide of a non-empty list. */
  lemma CarouselRoundTrip(index: int, len: nat)
    requires 0 <= index < len
    ensures CarouselNext(CarouselPrev(index, len), len) == index
    ensures CarouselPrev(CarouselNext(index, len), len) == index
  {
  }

  // ---------------------------------------------------------------------------
  // Gallery state and its event handlers
  // ---------------------------------------------------------------------------

  datatype Gallery = Gallery(
    images: seq<Image>, filtered: seq<Image>, page: int, sort: string, term: string, carousel: int)

  function TotalPages(g: Gallery): nat {
    CeilDiv(|g.filtered|, ImagesPerPage)
  }

  /** The constructor and `init`: all records loaded, none filtered out, page 1, `newest` selected but not yet applied. */
  function Init(): (g: Gallery)
    ensures g.filtered == g.images == LoadAllImages()
    ensures g.page == 1 && g.term == ""
  {
    var all := LoadAllImages();
    Gallery(all, all, 1, "newest", "", 0)
  }

  /**
   What the handlers keep true: the page lies in `[1, totalPages]` (page 1
   when nothing matches) and the filtered list is a reordering of the
   search result for the current term.
   */
  predicate Valid(g: Gallery, lower: string -> string) {
    1 <= g.page <= Max(1, TotalPages(g)) &&
    multiset(g.filtered) == multiset(SearchFilter(g.images, g.term, lower))
  }

  /** The grid of `renderGridView`: the filtered records of the current page. */
  function GridPage(g: Gallery): (r: seq<Image>)
    requires g.page >= 1
    ensures |r| <= ImagesPerPage
    ensures forall x | x in r :: x in g.filtered
    ensures |r| == Max(0, Min(ImagesPerPage, |g.filtered| - (g.page - 1) * ImagesPerPage))
    ensures forall i | 0 <= i < |r| :: r[i] == g.filtered[(g.page - 1) * ImagesPerPage + i]
  {
    PageSlice(g.filtered, g.page)
  }

  /**
   The search input as written: new lower-cased term, filters re-applied,
   back to page 1. The carousel index is left where it was, even when the
   new filtered list is shorter.
   */
  function OnSearchAsWritten(g: Gallery, value: string, lower: string -> string, choose: nat -> nat): (g': Gallery)
    ensures g'.page == 1
    ensures g'.term == lower(value) && g'.images == g.images
    ensures g'.carousel == g.carousel
    ensures g'.sort == g.sort
    ensures multiset(g'.filtered) == multiset(SearchFilter(g.images, lower(value), lower))
    ensures |g'.filtered| == |SearchFilter(g.images, lower(value), lower)|
    ensures g.sort == "newest" ==> SortedBy(g'.filtered, true)
    ensures g.sort == "oldest" ==> SortedBy(g'.filtered, false)
    ensures Valid(g', lower)
  {
    var term := lower(value);
    g.(term := term, filtered := ApplyFilters(g.images, term, g.sort, lower, choose), page := 1)
  }

  /** The sort select: new order, filters re-applied, page unchanged (the filtered count does not change). */
  function OnSort(g: Gallery, value: string, lower: string -> string, choose: nat -> nat): (g': Gallery)
    ensures g'.page == g.page && g'.term == g.term
    ensures g'.images == g.images && g'.carousel == g.carousel
    ensures g'.sort == value
    ensures multiset(g'.filtered) == multiset(SearchFilter(g.images, g.term, lower))
    ensures |g'.filtered| == |SearchFilter(g.images, g.term, lower)|
    ensures value == "newest" ==> SortedBy(g'.filtered, true)
    ensures value == "oldest" ==> SortedBy(g'.filtered, false)
    ensures Valid(g, lower) ==> Valid(g', lower)
  {
    var g' := g.(sort := value, filtered := ApplyFilters(g.images, g.term, value, lower, choose));
    assert Valid(g, lower) ==> |g.filtered| == |g'.filtered| by {
      if Valid(g, lower) {
        assert |g.filtered| == |multiset(g.filtered)|;
      }
    }
    g'
  }

  /**
   The search input with the carousel returned to its first slide, as the
   page returns to page 1: the same gallery as written otherwise, and the
   carousel index always names a slide of the new list (if it has any).
   */
  function OnSearch(g: Gallery, value: string, lower: string -> string, choose: nat -> nat): (g': Gallery)
    ensures g'.page == 1
    ensures g'.term == lower(value) && g'.images == g.images
    ensures g'.filtered == OnSearchAsWritten(g, value, lower, choose).filtered
    ensures g'.sort == g.sort
    ensures multiset(g'.filtered) == multiset(SearchFilter(g.images, lower(value), lower))
    ensures g.sort == "newest" ==> SortedBy(g'.filtered, true)
    ensures g.sort == "oldest" ==> SortedBy(g'.filtered, false)
    ensures Valid(g', lower)
    ensures CarouselOnList(g')
  {
    OnSearchAsWritten(g, value, lower, choose).(carousel := 0)
  }

  function OnPrev(g: Gallery): (g': Gallery)
    ensures g' == g.(page := PrevPage(g.page))
  {
    g.(page := PrevPage(g.page))
  }

  function OnNext(g: Gallery): (g': Gallery)
    ensures g' == g.(page := NextPage(g.page, TotalPages(g)))
  {
    g.(page := NextPage(g.page, TotalPages(g)))
  }

  /**
   A click on a page-number button: the page becomes `parseInt` of the
   button's `data-page`, which was rendered from a page number of the window.
   */
  function OnPageButton(g: Gallery, pageNumber: nat): (g': Gallery)
    requires PageWindow(g.page, TotalPages(g)).0 <= pageNumber <= PageWindow(g.page, TotalPages(g)).1
    ensures g' == g.(page := pageNumber)
  {
    ParseDecimalOfDecimal(pageNumber);
    g.(page := ParseDecimal(Decimal(pageNumber)))
  }

  /** The carousel index names a slide of the filtered list, unless there are no slides. */
  predicate CarouselOnList(g: Gallery) {
    |g.filtered| == 0 || 0 <= g.carousel < |g.filtered|
  }

  /** The carousel's previous button on the gallery: only the carousel index changes. */
  function OnCarouselPrev(g: Gallery): (g': Gallery)
    ensures g' == g.(carousel := CarouselPrev(g.carousel, |g.filtered|))
    ensures CarouselOnList(g) ==> CarouselOnList(g')
  {
    g.(carousel := CarouselPrev(g.carousel, |g.filtered|))
  }

  /** The carousel's next button on the gallery: only the carousel index changes, and it always lands on a slide. */
  function OnCarouselNext(g: Gallery): (g': Gallery)
    ensures g' == g.(carousel := CarouselNext(g.carousel, |g.filtered|))
    ensures g.carousel >= -1 ==> CarouselOnList(g')
  {
    g.(carousel := CarouselNext(g.carousel, |g.filtered|))
  }

  /** A click on indicator `index`, one of which is rendered per filtered record. */
  function OnIndicator(g: Gallery, index: nat): (g': Gallery)
    requires index < |g.filtered|
    ensures g' == g.(carousel := index)
    ensures CarouselOnList(g')
  {
    g.(carousel := index)
  }

  /**
   Every handler of the corrected gallery keeps the carousel on the list: the
   search resets it, the sort keeps the number of records, the page buttons
   leave it alone and the carousel buttons wrap within the list.
   */
  lemma CarouselStaysOnList(g: Gallery, lower: string -> string, choose: nat -> nat, value: string, pageNumber: nat, index: nat)
    requires Valid(g, lower)
    requires CarouselOnList(g)
    ensures CarouselOnList(OnSearch(g, value, lower, choose))
    ensures CarouselOnList(OnSort(g, value, lower, choose))
    ensures CarouselOnList(OnPrev(g)) && CarouselOnList(OnNext(g))
    ensures CarouselOnList(OnCarouselPrev(g)) && CarouselOnList(OnCarouselNext(g))
    ensures PageWindow(g.page, TotalPages(g)).0 <= pageNumber <= PageWindow(g.page, TotalPages(g)).1 ==>
              CarouselOnList(OnPageButton(g, pageNumber))
    ensures index < |g.filtered| ==> CarouselOnList(OnIndicator(g, index))
  {
    assert |g.filtered| == |multiset(g.filtered)|;
  }

  /**
   The search as written strands the carousel: when the new list is shorter
   than the carousel index, no slide is active, and a press of the previous
   button from beyond the end still names no slide.
   */
  lemma SearchStrandsCarousel(g: Gallery, value: string, lower: string -> string, choose: nat -> nat)
    requires 0 < |SearchFilter(g.images, lower(value), lower)| <= g.carousel
    ensures var g' := OnSearchAsWritten(g, value, lower, choose);
            !CarouselOnList(g') &&
            (|g'.filtered| < g.carousel ==> !CarouselOnList(OnCarouselPrev(g')))
  {
  }

  /**
   A concrete stranding: three records, the carousel on the third, and a
   search that keeps only the first. Both the gallery before the search and
   the corrected search keep the carousel on the list; the search as written
   does not, and the previous button does not bring it back.
   */
  lemma StrandedCarouselExample()
    ensures var a := Image(1, "", "a", "", "", "", 2020, "", "");
            var b := Image(2, "", "b", "", "", "", 2020, "", "");
            var c := Image(3, "", "b", "", "", "", 2020, "", "");
            var g := Gallery([a, b, c], [a, b, c], 1, "newest", "", 2);
            var same := (x: string) => x;
            var draw := (i: nat) => 0;
            Valid(g, same) && CarouselOnList(g) &&
            OnSearchAsWritten(g, "a", same, draw).filtered == [a] &&
            !CarouselOnList(OnSearchAsWritten(g, "a", same, draw)) &&
            !CarouselOnList(OnCarouselPrev(OnSearchAsWritten(g, "a", same, draw))) &&
            CarouselOnList(OnSearch(g, "a", same, draw))
  {
    var a := Image(1, "", "a", "", "", "", 2020, "", "");
    var b := Image(2, "", "b", "", "", "", 2020, "", "");
    var c := Image(3, "", "b", "", "", "", 2020, "", "");
    var same := (x: string) => x;
    assert Includes("a", "a") by {
      assert OccursAt("a", "a", 0);
    }
    assert !Includes("", "a");
    assert !Includes("b", "a") by {
      assert "b"[..1] != "a" by {
        assert "b"[..1][0] != "a"[0];
      }
      assert "b"[1..] == "";
    }
    assert MatchesTerm(a, "a", same);
    assert !MatchesTerm(b, "a", same) && !MatchesTerm(c, "a", same);
    assert [c][1..] == [];
    assert Keep([c], "a", same) == [];
    assert [b, c][1..] == [c];
    assert Keep([b, c], "a", same) == [];
    assert [a, b, c][1..] == [b, c];
    assert Keep([a, b, c], "a", same) == [a];
  }

  /** Every handler keeps the gallery valid; the prev and next buttons are disabled exactly when they would not move. */
  lemma HandlersKeepValid(g: Gallery, lower: string -> string, choose: nat -> nat, value: string, pageNumber: nat)
    requires Valid(g, lower)
    ensures Valid(OnSearchAsWritten(g, value, lower, choose), lower)
    ensures Valid(OnSearch(g, value, lower, choose), lower)
    ensures Valid(OnSort(g, value, lower, choose), lower)
    ensures Valid(OnCarouselPrev(g), lower) && Valid(OnCarouselNext(g), lower)
    ensures Valid(OnPrev(g), lower)
    ensures Valid(OnNext(g), lower)
    ensures PageWindow(g.page, TotalPages(g)).0 <= pageNumber <= PageWindow(g.page, TotalPages(g)).1 ==>
              Valid(OnPageButton(g, pageNumber), lower)
  {
  }

  /** The freshly loaded gallery is valid. */
  lemma InitValid(lower: string -> string)
    ensures Valid(Init(), lower)
    ensures CarouselOnList(Init())
  {
  }
}

=== FILE: worker.dfy ===
/**
 The service worker (`sw.js`, version 3.0): three versioned caches, a request
 filter and classifier, four cache-first handlers and one network-first
 handler, a size-bounded image cache, all-or-nothing installation and
 activation that deletes every cache of other versions.

 Every handler is a pure function from the cache storage, the request's key
 and the network's answer to the new storage and the handler's reply. The
 un-awaited `cache.put` calls are taken to complete before the handler
 returns; the document handler's background refresh is the separate step
 `RefreshDocument`.
 */
module Worker {

  import opened Optional
  import opened Text
  import opened Http
  import opened CacheStore

  /** Cache Storage: cache name to cache (`caches`). */
  type Storage = map<string, Cache>

  const StaticCache: string := "static-v3.0"
  const DynamicCache: string := "dynamic-v3.0"
  const ImageCache: string := "images-v3.0"

  /** The only cache names a version-3.0 worker keeps when it activates. */
  const ExpectedCaches: set<string> := {StaticCache, DynamicCache, ImageCache}

  /** Pre-cached at install; every one of them or none. */
  const CriticalResources: seq<Url> := [
    "/", "/index.html", "/css/optimized.min.css", "/js/optimized.min.js",
    "/js/lazy-gallery.min.js", "/img/image_25.webp", "/img/logo.webp", "/manifest.json"
  ]

  /** Candidates for the activation preload, of which only the first `PreloadCount` are fetched. */
  const EssentialResources: seq<Url> := [
    "/css/jquery.fancybox.min.css", "/js/jquery-3.4.1.min.js", "/js/jquery.fancybox.min.js",
    "/img/ihr.webp", "/img/logo.png", "/img/gal-1.webp", "/img/gal-2.webp", "/img/gal-3.webp",
    "/img/gal-4.webp", "/img/gal-5.webp", "/img/gal-6.webp", "/img/gal-7.webp", "/img/gal-8.webp"
  ]

  const PreloadCount: nat := 5

  /** Maximum entries of the gallery-image cache and of the regular-image pass over the dynamic cache. */
  const GalleryMax: nat := 50
  const ImageMax: nat := 30

  /** The key `cache.match('/index.html')` looks up when a document cannot be fetched. */
  const OfflinePage: Url := "/index.html"

  const GalleryPrefix: string := "/img/image_"
  const GallerySuffix: string := ".webp"

  // ---------------------------------------------------------------------------
  // Request filter and classifier
  // ---------------------------------------------------------------------------

  /**
   The parts of a `Request` the worker reads: method, origin and pathname of
   its URL, the query string (part of the cache key but not of the pattern
   test), and `request.destination`.
   */
  datatype Request = Request(httpMethod: string, origin: string, pathname: string, search: string, destination: string) {

    /** The cache key: the URL without its origin, which is the same for every stored request. */
    function Key(): Url {
      pathname + search
    }
  }

  /** Only same-origin `GET` requests reach a handler; all others go to the network untouched. */
  predicate Intercepted(req: Request, workerOrigin: string) {
    req.httpMethod == "GET" && req.origin == workerOrigin
  }

  /** The number of consecutive digits at the end of `s`. */
  function TrailingDigits(s: string): (k: nat)
    ensures k <= |s|
    ensures AllDigits(s[|s| - k..])
    ensures k < |s| ==> !IsDigit(s[|s| - k - 1])
    decreases |s|
  {
    if |s| > 0 && IsDigit(s[|s| - 1]) then
      var t := s[..|s| - 1];
      var k := 1 + TrailingDigits(t);
      assert s[|s| - k..] == t[|t| - (k - 1)..] + [s[|s| - 1]];
      assert k < |s| ==> s[|s| - k - 1] == t[|t| - (k - 1) - 1];
      k
    else 0
  }

  /**
   The test of `/\/img\/image_\d+\.webp$/` on a pathname: it ends in `.webp`,
   before that a run of at least one digit, before that `/img/image_`.
   The expression is not anchored at the start, so any directory may precede it.
   */
  predicate IsGalleryPath(p: string) {
    |p| >= |GallerySuffix| && p[|p| - |GallerySuffix|..] == GallerySuffix &&
    var stem := p[..|p| - |GallerySuffix|];
    var k := TrailingDigits(stem);
    k >= 1 && |stem| - k >= |GalleryPrefix| && stem[|stem| - k - |GalleryPrefix|..|stem| - k] == GalleryPrefix
  }

  /** Every path of the form `<anything>/img/image_<digits>.webp` is a gallery path. */
  lemma GalleryPathAccepted(dir: string, digits: string)
    requires 1 <= |digits| && AllDigits(digits)
    ensures IsGalleryPath(dir + GalleryPrefix + digits + GallerySuffix)
  {
    var p := dir + GalleryPrefix + digits + GallerySuffix;
    var stem := dir + GalleryPrefix + digits;
    assert p[..|p| - |GallerySuffix|] == stem;
    assert p[|p| - |GallerySuffix|..] == GallerySuffix;
    var k := TrailingDigits(stem);
    assert stem[|stem| - |digits|..] == digits;
    assert stem[|stem| - |digits| - 1] == '_';
    TrailingDigitsOfRun(stem, |digits|);
    assert k == |digits|;
    assert stem[|stem| - k - |GalleryPrefix|..|stem| - k] == GalleryPrefix;
  }

  /** A run of exactly `n` digits closing `s` after a non-digit is what `TrailingDigits` counts. */
  lemma {:induction false} TrailingDigitsOfRun(s: string, n: nat)
    requires n < |s|
    requires AllDigits(s[|s| - n..])
    requires !IsDigit(s[|s| - n - 1])
    ensures TrailingDigits(s) == n
    decreases n
  {
    if n > 0 {
      assert IsDigit(s[|s| - n..][n - 1]);
      var t := s[..|s| - 1];
      assert t[|t| - (n - 1)..] == s[|s| - n..|s| - 1];
      assert t[|t| - (n - 1) - 1] == s[|s| - n - 1];
      TrailingDigitsOfRun(t, n - 1);
    } else {
      assert s[|s| - 1] == s[|s| - 0 - 1];
    }
  }

  /** Conversely, every gallery path splits into a directory, the prefix, digits and the suffix. */
  lemma GalleryPathShape(p: string) returns (dir: string, digits: string)
    requires IsGalleryPath(p)
    ensures 1 <= |digits| && AllDigits(digits)
    ensures p == dir + GalleryPrefix + digits + GallerySuffix
  {
    var stem := p[..|p| - |GallerySuffix|];
    var k := TrailingDigits(stem);
    dir := stem[..|stem| - k - |GalleryPrefix|];
    digits := stem[|stem| - k..];
    assert stem == dir + stem[|stem| - k - |GalleryPrefix|..|stem| - k] + digits;
    assert p == stem + p[|p| - |GallerySuffix|..];
  }

  /** The five handlers of the fetch event, in the order their tests are tried. */
  datatype Route = GalleryImage | Document | Asset | Image | Default

  /**
   The classifier of the fetch event: the gallery pattern on the pathname
   first, whatever the destination, then the destinations `document`,
   `style` or `script`, and `image`; everything else takes the default route.
   */
  function Classify(req: Request): (r: Route)
    ensures r == GalleryImage <==> IsGalleryPath(req.pathname)
    ensures r == Document <==> !IsGalleryPath(req.pathname) && req.destination == "document"
    ensures r == Asset <==> !IsGalleryPath(req.pathname) && req.destination in {"style", "script"}
    ensures r == Image <==> !IsGalleryPath(req.pathname) && req.destination == "image"
    ensures r == Default <==> !IsGalleryPath(req.pathname) && req.destination !in {"document", "style", "script", "image"}
  {
    if IsGalleryPath(req.pathname) then GalleryImage
    else if req.destination == "document" then Document
    else if req.destination == "style" || req.destination == "script" then Asset
    else if req.destination == "image" then Image
    else Default
  }

  // ---------------------------------------------------------------------------
  // Handlers
  // ---------------------------------------------------------------------------

  /**
   What the page receives: no `respondWith` at all (the browser fetches
   normally), a response, or a `respondWith` promise that resolved to
   `undefined`, which the page sees as a network error.
   */
  datatype Reply = Passthrough | Respond(response: Response) | NoResponse

  datatype Outcome = Outcome(storage: Storage, reply: Reply)

  /** `caches.open(name)`: the named cache, created empty when missing. */
  function Open(s: Storage, name: string): (r: Storage)
    ensures r.Keys == s.Keys + {name}
    ensures name in s ==> r == s
    ensures name !in s ==> r[name] == []
    ensures forall n | n in s :: r[n] == s[n]
  {
    if name in s then s else s[name := []]
  }

  /** `(await caches.open(name)).match(key)`: the stored response, if the cache exists and holds one. */
  function Lookup(s: Storage, name: string, key: Url): Option<Response> {
    if name in s then Match(s[name], key) else None
  }

  /** No cache other than `name` was created, deleted or changed. */
  predicate OthersUntouched(s: Storage, s': Storage, name: string) {
    s'.Keys - {name} == s.Keys - {name} &&
    (forall n | n in s && n != name :: n in s' && s'[n] == s[n])
  }

  /** The eviction pass that precedes a put into a bounded cache; `None` for an unbounded one. */
  function Evict(c: Cache, bound: Option<nat>): Cache {
    match bound
    case None => c
    case Some(m) => ManageCacheSize(c, m)
  }

  /**
   The eviction pass makes room: a cache within a bound of at least 5 stays
   within it after the pass and one put, because a full cache loses at least
   one entry.
   */
  lemma EvictThenPutBounded(c: Cache, bound: Option<nat>, key: Url, v: Response)
    ensures bound.Some? && bound.value >= 5 && |c| <= bound.value ==> |Put(Evict(c, bound), key, v)| <= bound.value
  {
    if bound.Some? && bound.value >= 5 && |c| >= bound.value {
      assert |Evict(c, bound)| == |c| - |c| / 5;
    }
  }

  /**
   The cache-first strategy shared by the gallery, asset and image handlers. A
   hit answers from the cache with no fetch and no write. A miss answers with
   the network's response whether or not it is `ok`, storing it (after the
   eviction pass of a bounded cache) only when it is `ok`. A thrown fetch
   answers with an empty 404 and stores nothing.
   */
  function CacheFirst(s: Storage, name: string, bound: Option<nat>, key: Url, net: Net): (o: Outcome)
    ensures name in o.storage
    ensures OthersUntouched(s, o.storage, name)
    ensures Lookup(s, name, key).Some? ==> o == Outcome(s, Respond(Lookup(s, name, key).value))
    ensures Lookup(s, name, key).None? && net.Fail? ==> o == Outcome(Open(s, name), Respond(EmptyNotFound))
    ensures Lookup(s, name, key).None? && net.Got? ==> o.reply == Respond(net.response)
    ensures o.storage != Open(s, name) ==>
              Lookup(s, name, key).None? && net.Got? && net.response.Ok() &&
              Match(o.storage[name], key) == Some(net.response)
    ensures Lookup(s, name, key).None? && net.Got? && net.response.Ok() ==>
              o.storage[name] == Put(Evict(Open(s, name)[name], bound), key, net.response)
    ensures bound.Some? && bound.value >= 5 && |Open(s, name)[name]| <= bound.value ==>
              |o.storage[name]| <= bound.value
  {
    var s1 := Open(s, name);
    var c := s1[name];
    match Match(c, key)
    case Some(hit) => Outcome(s1, Respond(hit))
    case None =>
      match net
      case Fail => Outcome(s1, Respond(EmptyNotFound))
      case Got(response) =>
        if response.Ok() then
          var c' := Put(Evict(c, bound), key, response);
          EvictThenPutBounded(c, bound, key, response);
          Outcome(s1[name := c'], Respond(response))
        else
          Outcome(s1, Respond(response))
  }

  /**
   `handleGalleryImage`: cache-first on the image cache, evicting down from
   `GalleryMax` entries before a store, so an image cache within its bound
   stays within it.
   */
  function HandleGalleryImage(s: Storage, key: Url, net: Net): (o: Outcome)
    ensures OthersUntouched(s, o.storage, ImageCache)
    ensures ImageCache in o.storage
    ensures Lookup(s, ImageCache, key).Some? ==> o.storage == s
    ensures (ImageCache in s ==> |s[ImageCache]| <= GalleryMax) ==> |o.storage[ImageCache]| <= GalleryMax
    ensures o.reply.Respond?
  {
    CacheFirst(s, ImageCache, Some(GalleryMax), key, net)
  }

  /** `handleAssets`: cache-first on the static cache, with no eviction. */
  function HandleAssets(s: Storage, key: Url, net: Net): (o: Outcome)
    ensures OthersUntouched(s, o.storage, StaticCache)
    ensures Lookup(s, StaticCache, key).Some? ==> o.storage == s
    ensures net.Got? && !net.response.Ok() ==> o.storage == Open(s, StaticCache)
    ensures o.reply.Respond?
  {
    CacheFirst(s, StaticCache, None, key, net)
  }

  /**
   `handleImages`: cache-first on the dynamic cache (not the image cache),
   running the eviction pass with bound `ImageMax` before a store. Because
   the default handler also stores into the dynamic cache without eviction,
   the pass bounds growth rather than size: a store into a dynamic cache of
   `ImageMax` entries or more never makes it larger.
   */
  function HandleImages(s: Storage, key: Url, net: Net): (o: Outcome)
    ensures OthersUntouched(s, o.storage, DynamicCache)
    ensures DynamicCache in o.storage
    ensures Lookup(s, DynamicCache, key).Some? ==> o.storage == s
    ensures DynamicCache in s && |s[DynamicCache]| >= ImageMax ==> |o.storage[DynamicCache]| <= |s[DynamicCache]|
    ensures o.reply.Respond?
  {
    var o := CacheFirst(s, DynamicCache, Some(ImageMax), key, net);
    assert DynamicCache in s && |s[DynamicCache]| >= ImageMax ==> |o.storage[DynamicCache]| <= |s[DynamicCache]| by {
      if DynamicCache in s && |s[DynamicCache]| >= ImageMax && o.storage != s {
        var c := s[DynamicCache];
        assert |ManageCacheSize(c, ImageMax)| == |c| - |c| / 5;
      }
    }
    o
  }

  /**
   `handleDocument` as written: cache-first on the static cache. A hit is
   answered from the cache at once (the background refresh is
   `RefreshDocument`). A miss answers with the network's response, storing it
   only when `ok`. When the fetch throws, the handler answers with the cached
   `/index.html`; since the fallback is `cache.match(...) || new Response(...)`
   and a promise is never falsy, a missing `/index.html` leaves the page with
   a network error instead of the 503 response.
   */
  function HandleDocumentAsWritten(s: Storage, key: Url, net: Net): (o: Outcome)
    ensures OthersUntouched(s, o.storage, StaticCache)
    ensures StaticCache in o.storage
    ensures Lookup(s, StaticCache, key).Some? ==> o == Outcome(s, Respond(Lookup(s, StaticCache, key).value))
    ensures Lookup(s, StaticCache, key).None? && net.Got? ==> o.reply == Respond(net.response)
    ensures o.storage != Open(s, StaticCache) ==>
              Lookup(s, StaticCache, key).None? && net.Got? && net.response.Ok() &&
              Match(o.storage[StaticCache], key) == Some(net.response)
    ensures Lookup(s, StaticCache, key).None? && net.Got? && net.response.Ok() ==>
              o.storage[StaticCache] == Put(Open(s, StaticCache)[StaticCache], key, net.response)
    ensures forall k | k != key :: Lookup(o.storage, StaticCache, k) == Lookup(s, StaticCache, k)
    ensures Lookup(s, StaticCache, key).None? && net.Fail? ==>
              o.storage == Open(s, StaticCache) &&
              o.reply == (match Lookup(s, StaticCache, OfflinePage)
                          case Some(page) => Respond(page)
                          case None => NoResponse)
  {
    var s1 := Open(s, StaticCache);
    var c := s1[StaticCache];
    match Match(c, key)
    case Some(hit) => Outcome(s1, Respond(hit))
    case None =>
      match net
      case Got(response) =>
        if response.Ok() then Outcome(s1[StaticCache := Put(c, key, response)], Respond(response))
        else Outcome(s1, Respond(response))
      case Fail =>
        match Match(c, OfflinePage)
        case Some(page) => Outcome(s1, Respond(page))
        case None => Outcome(s1, NoResponse)
  }

  /**
   `handleDocument` with the offline fallback applied to the awaited match:
   the same storage and the same reply as written, except that a missing
   `/index.html` is answered with the 503 `Offline` response, so the handler
   always answers.
   */
  function HandleDocument(s: Storage, key: Url, net: Net): (o: Outcome)
    ensures o.storage == HandleDocumentAsWritten(s, key, net).storage
    ensures OthersUntouched(s, o.storage, StaticCache)
    ensures Lookup(s, StaticCache, key).Some? ==> o == Outcome(s, Respond(Lookup(s, StaticCache, key).value))
    ensures Lookup(s, StaticCache, key).None? && net.Got? ==> o.reply == Respond(net.response)
    ensures Lookup(s, StaticCache, key).None? && net.Got? && net.response.Ok() ==>
              o.storage[StaticCache] == Put(Open(s, StaticCache)[StaticCache], key, net.response)
    ensures forall k | k != key :: Lookup(o.storage, StaticCache, k) == Lookup(s, StaticCache, k)
    ensures Lookup(s, StaticCache, key).None? && net.Fail? ==>
              o.reply == Respond(match Lookup(s, StaticCache, OfflinePage)
                                 case Some(page) => page
                                 case None => OfflineResponse)
    ensures o.reply.Respond?
  {
    var o := HandleDocumentAsWritten(s, key, net);
    if o.reply == NoResponse then Outcome(o.storage, Respond(OfflineResponse)) else o
  }

  /**
   The background refresh `handleDocument` starts after a hit: when the later
   fetch resolves `ok` its response replaces the cached copy; otherwise
   nothing changes.
   */
  function RefreshDocument(s: Storage, key: Url, net: Net): (s': Storage)
    ensures OthersUntouched(s, s', StaticCache)
    ensures net.Got? && net.response.Ok() ==> Lookup(s', StaticCache, key) == Some(net.response)
    ensures !(net.Got? && net.response.Ok()) ==> s' == s
    ensures forall k | k != key :: Lookup(s', StaticCache, k) == Lookup(s, StaticCache, k)
  {
    if net.Got? && net.response.Ok() then
      var s1 := Open(s, StaticCache);
      s1[StaticCache := Put(s1[StaticCache], key, net.response)]
    else s
  }

  /**
   `handleDefault`: network first. An `ok` response is stored in the dynamic
   cache and returned; any other response is returned and nothing is opened.
   When the fetch throws, the dynamic cache's copy answers, or an empty 404,
   and nothing is stored.
   */
  function HandleDefault(s: Storage, key: Url, net: Net): (o: Outcome)
    ensures OthersUntouched(s, o.storage, DynamicCache)
    ensures net.Got? ==> o.reply == Respond(net.response)
    ensures net.Got? && net.response.Ok() ==> Lookup(o.storage, DynamicCache, key) == Some(net.response)
    ensures net.Got? && net.response.Ok() ==>
              o.storage[DynamicCache] == Put(Open(s, DynamicCache)[DynamicCache], key, net.response)
    ensures forall k | k != key :: Lookup(o.storage, DynamicCache, k) == Lookup(s, DynamicCache, k)
    ensures net.Got? && !net.response.Ok() ==> o.storage == s
    ensures net.Fail? ==> o.storage == Open(s, DynamicCache)
    ensures net.Fail? && Lookup(s, DynamicCache, key).Some? ==> o.reply == Respond(Lookup(s, DynamicCache, key).value)
    ensures net.Fail? && Lookup(s, DynamicCache, key).None? ==> o.reply == Respond(EmptyNotFound)
  {
    var s1 := Open(s, DynamicCache);
    match net
    case Got(response) =>
      if response.Ok() then Outcome(s1[DynamicCache := Put(s1[DynamicCache], key, response)], Respond(response))
      else Outcome(s, Respond(response))
    case Fail =>
      match Match(s1[DynamicCache], key)
      case Some(cached) => Outcome(s1, Respond(cached))
      case None => Outcome(s1, Respond(EmptyNotFound))
  }

  /**
   The page is left without a response: a document request, offline, with
   neither the document nor `/index.html` in the static cache.
   */
  predicate OfflineWithoutCopy(s: Storage, req: Request, net: Net) {
    Classify(req) == Document && net.Fail? &&
    Lookup(s, StaticCache, req.Key()).None? && Lookup(s, StaticCache, OfflinePage).None?
  }

  /**
   The fetch event as written: requests that are not same-origin `GET`s get
   no `respondWith` and leave the storage as it is; every other request is
   answered by the handler its classification selects. The only intercepted
   request that receives no response is the offline document request with
   nothing cached to fall back on.
   */
  function OnFetch(s: Storage, workerOrigin: string, req: Request, net: Net): (o: Outcome)
    ensures o.reply == Passthrough <==> !Intercepted(req, workerOrigin)
    ensures !Intercepted(req, workerOrigin) ==> o.storage == s
    ensures o.reply == NoResponse <==> Intercepted(req, workerOrigin) && OfflineWithoutCopy(s, req, net)
  {
    if !Intercepted(req, workerOrigin) then Outcome(s, Passthrough)
    else
      match Classify(req)
      case GalleryImage => HandleGalleryImage(s, req.Key(), net)
      case Document => HandleDocumentAsWritten(s, req.Key(), net)
      case Asset => HandleAssets(s, req.Key(), net)
      case Image => HandleImages(s, req.Key(), net)
      case Default => HandleDefault(s, req.Key(), net)
  }

  /**
   The fetch event with the corrected document handler: every intercepted
   request is answered with a response, and wherever the worker as written
   answers, this one answers and stores the same.
   */
  function OnFetchCorrected(s: Storage, workerOrigin: string, req: Request, net: Net): (o: Outcome)
    ensures o.reply == Passthrough <==> !Intercepted(req, workerOrigin)
    ensures Intercepted(req, workerOrigin) ==> o.reply.Respond?
    ensures o.storage == OnFetch(s, workerOrigin, req, net).storage
    ensures OnFetch(s, workerOrigin, req, net).reply != NoResponse ==> o == OnFetch(s, workerOrigin, req, net)
  {
    if Intercepted(req, workerOrigin) && Classify(req) == Document then HandleDocument(s, req.Key(), net)
    else OnFetch(s, workerOrigin, req, net)
  }

  // ---------------------------------------------------------------------------
  // Lifecycle
  // ---------------------------------------------------------------------------

  lemma CriticalResourcesDistinct()
    ensures DistinctUrls(CriticalResources)
  {
  }

  /** The preload batch lists five different URLs, none of which is among the ones left out. */
  lemma PreloadBatchDistinct()
    ensures DistinctUrls(EssentialResources[..PreloadCount])
    ensures forall i | PreloadCount <= i < |EssentialResources| :: EssentialResources[i] !in EssentialResources[..PreloadCount]
  {
  }

  datatype Phase = Phase(storage: Storage, succeeded: bool)

  /** One `addAll` into the cache `name`, which the caller has opened: all of the batch or nothing. */
  function Populate(s: Storage, name: string, urls: seq<Url>, fetch: Url -> Net): (p: Phase)
    requires name in s
    ensures p.storage.Keys == s.Keys
    ensures forall n | n in s && n != name :: p.storage[n] == s[n]
    ensures p.succeeded <==> DistinctUrls(urls) && AllOk(urls, fetch)
    ensures p.succeeded ==> forall i | 0 <= i < |urls| :: Match(p.storage[name], urls[i]) == Some(fetch(urls[i]).response)
    ensures p.succeeded ==> forall k | k !in urls :: Match(p.storage[name], k) == Match(s[name], k)
    ensures !p.succeeded ==> p.storage == s
  {
    match AddAll(s[name], urls, fetch)
    case Some(c) => Phase(s[name := c], true)
    case None => Phase(s, false)
  }

  /** The three `caches.open` calls of the install event. */
  function OpenAll(s: Storage): (r: Storage)
    ensures r.Keys == s.Keys + ExpectedCaches
    ensures forall n | n in s :: r[n] == s[n]
  {
    var s1 := Open(s, StaticCache);
    var s2 := Open(s1, DynamicCache);
    var s3 := Open(s2, ImageCache);
    assert s3.Keys == s.Keys + {StaticCache} + {DynamicCache} + {ImageCache};
    assert ExpectedCaches == {StaticCache} + {DynamicCache} + {ImageCache};
    s3
  }

  /** The cleanup half of the activate event: `caches.delete` of every unexpected name. */
  function DeleteObsolete(s: Storage): (r: Storage)
    ensures r.Keys == s.Keys * ExpectedCaches
    ensures forall n | n in r :: r[n] == s[n]
  {
    map n | n in s.Keys * ExpectedCaches :: s[n]
  }

  /** The install event for any list of URLs: the three opens, then one `addAll` into the static cache. */
  function Precache(s: Storage, urls: seq<Url>, fetch: Url -> Net): (p: Phase)
    requires DistinctUrls(urls)
    ensures p.storage.Keys == s.Keys + ExpectedCaches
    ensures forall n | n in s && n != StaticCache :: p.storage[n] == s[n]
    ensures p.succeeded <==> AllOk(urls, fetch)
    ensures p.succeeded ==> forall i | 0 <= i < |urls| ::
              Match(p.storage[StaticCache], urls[i]) == Some(fetch(urls[i]).response)
    ensures p.succeeded ==> forall k | k !in urls ::
              Lookup(p.storage, StaticCache, k) == Lookup(s, StaticCache, k)
    ensures !p.succeeded ==> p.storage == OpenAll(s)
  {
    var reopened := OpenAll(s);
    assert forall k :: Lookup(reopened, StaticCache, k) == Lookup(s, StaticCache, k);
    Populate(reopened, StaticCache, urls, fetch)
  }

  /**
   The install event: opens the three caches and adds every critical resource
   to the static cache in one `addAll`. Installation succeeds exactly when all
   eight fetches resolve `ok`; when it fails the static cache holds none of
   the batch's responses, only what it held before.
   */
  function Install(s: Storage, fetch: Url -> Net): (p: Phase)
    ensures p.storage.Keys == s.Keys + ExpectedCaches
    ensures forall n | n in s && n != StaticCache :: p.storage[n] == s[n]
    ensures p.succeeded <==> AllOk(CriticalResources, fetch)
    ensures p.succeeded ==> forall i | 0 <= i < |CriticalResources| ::
              Match(p.storage[StaticCache], CriticalResources[i]) == Some(fetch(CriticalResources[i]).response)
    ensures p.succeeded ==> forall k | k !in CriticalResources ::
              Lookup(p.storage, StaticCache, k) == Lookup(s, StaticCache, k)
    ensures !p.succeeded ==> p.storage == OpenAll(s)
  {
    CriticalResourcesDistinct();
    Precache(s, CriticalResources, fetch)
  }

  /**
   The two halves of the activate event for any preload list: the cleanup,
   then one `addAll` of the first `count` URLs into the (re)opened dynamic cache.
   */
  function Preload(s: Storage, urls: seq<Url>, count: nat, fetch: Url -> Net): (p: Phase)
    requires count <= |urls|
    requires DistinctUrls(urls[..count])
    requires forall i | count <= i < |urls| :: urls[i] !in urls[..count]
    ensures p.storage.Keys == (s.Keys * ExpectedCaches) + {DynamicCache}
    ensures forall n | n in s && n !in ExpectedCaches :: n !in p.storage
    ensures forall n | n in s && n != DynamicCache && n in ExpectedCaches :: p.storage[n] == s[n]
    ensures p.succeeded <==> AllOk(urls[..count], fetch)
    ensures p.succeeded ==> forall i | 0 <= i < count ::
              Lookup(p.storage, DynamicCache, urls[i]) == Some(fetch(urls[i]).response)
    ensures forall i | count <= i < |urls| ::
              Lookup(p.storage, DynamicCache, urls[i]) == Lookup(s, DynamicCache, urls[i])
    ensures !p.succeeded ==> p.storage[DynamicCache] == Open(s, DynamicCache)[DynamicCache]
    ensures forall k | k !in urls[..count] :: Lookup(p.storage, DynamicCache, k) == Lookup(s, DynamicCache, k)
  {
    var cleaned := DeleteObsolete(s);
    var reopened := Open(cleaned, DynamicCache);
    assert reopened[DynamicCache] == Open(s, DynamicCache)[DynamicCache];
    var batch := urls[..count];
    assert forall i | 0 <= i < count :: urls[i] == batch[i];
    Populate(reopened, DynamicCache, batch, fetch)
  }

  /**
   The activate event: deletes every cache whose name is not one of the three
   version-3.0 names and leaves the others as they were, then preloads the
   first `PreloadCount` essential resources into the dynamic cache with one
   `addAll` (the rest of the list is never fetched).
   */
  function Activate(s: Storage, fetch: Url -> Net): (p: Phase)
    ensures p.storage.Keys == (s.Keys * ExpectedCaches) + {DynamicCache}
    ensures forall n | n in s && n !in ExpectedCaches :: n !in p.storage
    ensures forall n | n in s && n != DynamicCache && n in ExpectedCaches :: p.storage[n] == s[n]
    ensures p.succeeded <==> AllOk(EssentialResources[..PreloadCount], fetch)
    ensures p.succeeded ==> forall i | 0 <= i < PreloadCount ::
              Lookup(p.storage, DynamicCache, EssentialResources[i]) == Some(fetch(EssentialResources[i]).response)
    ensures forall i | PreloadCount <= i < |EssentialResources| ::
              Lookup(p.storage, DynamicCache, EssentialResources[i]) == Lookup(s, DynamicCache, EssentialResources[i])
    ensures !p.succeeded ==> p.storage[DynamicCache] == Open(s, DynamicCache)[DynamicCache]
    ensures forall k | k !in EssentialResources[..PreloadCount] ::
              Lookup(p.storage, DynamicCache, k) == Lookup(s, DynamicCache, k)
  {
    PreloadBatchDistinct();
    Preload(s, EssentialResources, PreloadCount, fetch)
  }
}

=== FILE: worker_properties.dfy ===
/**
 Properties of the worker that span several events: the size bound of the
 gallery-image cache over any run of the worker, the eviction pass on the
 30-entry example, repeat requests served from the cache, and the document
 handler's stale-while-revalidate behaviour.
 */
module WorkerProperties {

  import opened Http
  import opened CacheStore
  import opened Worker

  /** One thing that happens to a running worker. */
  datatype Event =
    | Fetch(req: Request, net: Net)
    | Refresh(key: Url, net: Net)
    | Installed(fetchAll: Url -> Net)
    | Activated(fetchAll: Url -> Net)

  function Step(s: Storage, workerOrigin: string, e: Event): Storage {
    match e
    case Fetch(req, net) => OnFetch(s, workerOrigin, req, net).storage
    case Refresh(key, net) => RefreshDocument(s, key, net)
    case Installed(fetchAll) => Install(s, fetchAll).storage
    case Activated(fetchAll) => Activate(s, fetchAll).storage
  }

  function Run(s: Storage, workerOrigin: string, events: seq<Event>): Storage
    decreases |events|
  {
    if |events| == 0 then s else Run(Step(s, workerOrigin, events[0]), workerOrigin, events[1..])
  }

  /** The image cache holds at most `GalleryMax` entries (or does not exist). */
  predicate ImageCacheBounded(s: Storage) {
    ImageCache in s ==> |s[ImageCache]| <= GalleryMax
  }

  /** A fetch keeps the image cache within its bound: only its own handler writes it. */
  lemma FetchKeepsImageCacheBounded(s: Storage, workerOrigin: string, req: Request, net: Net)
    requires ImageCacheBounded(s)
    ensures ImageCacheBounded(OnFetch(s, workerOrigin, req, net).storage)
  {
    if Intercepted(req, workerOrigin) {
      var o := OnFetch(s, workerOrigin, req, net);
      match Classify(req)
      case GalleryImage =>
      case Document => assert OthersUntouched(s, o.storage, StaticCache);
      case Asset => assert OthersUntouched(s, o.storage, StaticCache);
      case Image => assert OthersUntouched(s, o.storage, DynamicCache);
      case Default => assert OthersUntouched(s, o.storage, DynamicCache);
    }
  }

  /** Every single event keeps the image cache within its bound. */
  lemma StepKeepsImageCacheBounded(s: Storage, workerOrigin: string, e: Event)
    requires ImageCacheBounded(s)
    ensures ImageCacheBounded(Step(s, workerOrigin, e))
  {
    match e
    case Fetch(req, net) => FetchKeepsImageCacheBounded(s, workerOrigin, req, net);
    case Refresh(key, net) => RefreshKeepsImageCache(s, key, net);
    case Installed(fetchAll) => InstallKeepsImageCacheBounded(s, fetchAll);
    case Activated(fetchAll) => ActivateKeepsImageCache(s, fetchAll);
  }

  /** The document refresh writes only the static cache. */
  lemma RefreshKeepsImageCache(s: Storage, key: Url, net: Net)
    ensures var s' := RefreshDocument(s, key, net);
            (ImageCache in s' <==> ImageCache in s) && (ImageCache in s ==> s'[ImageCache] == s[ImageCache])
  {
  }

  /** Installing leaves an existing image cache as it was and creates a missing one empty. */
  lemma InstallKeepsImageCacheBounded(s: Storage, fetchAll: Url -> Net)
    requires ImageCacheBounded(s)
    ensures ImageCacheBounded(Install(s, fetchAll).storage)
    ensures ImageCache in s ==> Install(s, fetchAll).storage[ImageCache] == s[ImageCache]
    ensures ImageCache !in s ==> Install(s, fetchAll).storage[ImageCache] == []
  {
    if ImageCache !in s {
      assert Install(s, fetchAll).storage[ImageCache] == [];
    }
  }

  /** Activating leaves the image cache, when there is one, as it was. */
  lemma ActivateKeepsImageCache(s: Storage, fetchAll: Url -> Net)
    ensures var s' := Activate(s, fetchAll).storage;
            (ImageCache in s' <==> ImageCache in s) && (ImageCache in s ==> s'[ImageCache] == s[ImageCache])
  {
  }

  /**
   The bound the image cache's sole writer maintains: from any storage whose
   image cache is within `GalleryMax`, no run of fetches, refreshes, installs
   and activations takes it beyond `GalleryMax`.
   */
  lemma {:induction false} ImageCacheStaysBounded(s: Storage, workerOrigin: string, events: seq<Event>)
    requires ImageCacheBounded(s)
    ensures ImageCacheBounded(Run(s, workerOrigin, events))
    decreases |events|
  {
    if |events| > 0 {
      StepKeepsImageCacheBounded(s, workerOrigin, events[0]);
      ImageCacheStaysBounded(Step(s, workerOrigin, events[0]), workerOrigin, events[1..]);
    }
  }

  /**
   The eviction pass on a full cache of 30 entries before a 31st key is
   stored: the 6 oldest go, the other 24 keep their order, the new entry
   comes last, and 25 remain.
   */
  lemma ThirtyPlusOne(c: Cache, u: Url, v: Response)
    requires |c| == ImageMax
    requires !HasKey(c, u)
    ensures Put(ManageCacheSize(c, ImageMax), u, v) == c[6..] + [(u, v)]
    ensures |Put(ManageCacheSize(c, ImageMax), u, v)| == 25
  {
  }

  /**
   A gallery image stored after a miss is what every later request for the
   same key receives, whatever the network does then, and that later request
   writes nothing.
   */
  lemma GalleryRepeatServesStored(s: Storage, key: Url, response: Response, later: Net)
    requires Lookup(s, ImageCache, key).None?
    requires response.Ok()
    ensures var s' := HandleGalleryImage(s, key, Got(response)).storage;
            HandleGalleryImage(s', key, later) == Outcome(s', Respond(response))
  {
  }

  /**
   Stale-while-revalidate for documents: with a cached copy, the immediate
   answer is that copy; once the background refresh has stored a newer `ok`
   response, the next request for the same document receives the newer one.
   */
  lemma DocumentRefreshServedNextTime(s: Storage, key: Url, newer: Response, later: Net)
    requires Lookup(s, StaticCache, key).Some?
    requires newer.Ok()
    ensures HandleDocumentAsWritten(s, key, Got(newer)).reply == Respond(Lookup(s, StaticCache, key).value)
    ensures var s' := RefreshDocument(HandleDocumentAsWritten(s, key, Got(newer)).storage, key, Got(newer));
            HandleDocumentAsWritten(s', key, later).reply == Respond(newer)
  {
  }

  /**
   As written, the offline fallback never produces the 503 response: with no
   copy of the document and no `/index.html` in the static cache, a failed
   fetch leaves the page without any response, where the corrected handler
   answers 503.
   */
  lemma OfflineFallbackWithoutIndexGivesNoResponse(s: Storage, key: Url)
    requires Lookup(s, StaticCache, key).None?
    requires Lookup(s, StaticCache, OfflinePage).None?
    ensures HandleDocumentAsWritten(s, key, Fail).reply == NoResponse
    ensures HandleDocumentAsWritten(s, key, Fail).reply != Respond(OfflineResponse)
    ensures HandleDocument(s, key, Fail).reply == Respond(OfflineResponse)
  {
  }

  /**
   The document handler as written stays silent in exactly one situation,
   offline with neither the document nor `/index.html` cached; everywhere
   else the corrected handler behaves exactly as written.
   */
  lemma DocumentFixChangesOnlyTheSilentCase(s: Storage, key: Url, net: Net)
    ensures HandleDocumentAsWritten(s, key, net).reply == NoResponse <==>
              Lookup(s, StaticCache, key).None? && net.Fail? && Lookup(s, StaticCache, OfflinePage).None?
    ensures HandleDocumentAsWritten(s, key, net).reply != NoResponse ==>
              HandleDocument(s, key, net) == HandleDocumentAsWritten(s, key, net)
  {
  }

  /** A failed install stores none of the critical resources it did not already hold. */
  lemma FailedInstallStoresNothing(s: Storage, fetchAll: Url -> Net, i: nat)
    requires !AllOk(CriticalResources, fetchAll)
    requires i < |CriticalResources|
    ensures Lookup(Install(s, fetchAll).storage, StaticCache, CriticalResources[i]) == Lookup(s, StaticCache, CriticalResources[i])
  {
  }
}
